=== FILE: README.md ===
# timeforge core in Dafny

timeforge fills in the monthly working-time sheet ("Arbeitszeitdokumentation")
of a student assistant. This project models its three pieces of pure logic:

- **The synthetic month schedule** (`Month_Dataset` and `Day` in
  `helpers.py`). A monthly total of hours is cut into blocks of 2 to 4 hours
  (`make_timeblocks`). The blocks are popped from the end of the list and
  placed, one or two per date, on distinct weekdays of the month that are
  not holidays (`generate_content`). Every random draw is an input of the
  model, constrained to the range the source draws from. The calendar
  arithmetic it needs is in module `Calendar`: the leap-year rule,
  `days_of_month`, the day-count ("ordinal") that `datetime.date` uses for
  weekdays, comparison and `date + timedelta`.
- **The application record** (`APP_Data` in `core.py`), in module `AppData`.
  It is a finite map over a fixed universe of keys, with:
  - per-key validators;
  - `set`, `get` and `missing_keys`;
  - `pdf_content`, which renders the record into the PDF form's fields and
    computes the first day of the following month for the signature date.
- **The curses text fields** (`textfield`, `textfield_fixed` and
  `button.input` in `text_input.py`, and the older `textfield` in
  `curses_textfield.py`). They are modelled as a (content, cursor) buffer
  with these edits: insert at the cursor, backspace, bounded moves that
  hand back the key at an edge, and the key dispatcher. The viewport
  arithmetic of `draw` picks the visible slice and the cursor column.
  - Module `TextBuffer` holds the buffer and viewport shared by both files.
  - Module `TextInput` holds the form's widgets.
  - Module `CursesTextfield` holds the older field. It is proved to leave
    the same text and cursor as the newer one after every input.

Errors the source raises are `Result` values. Examples are `KeyError`,
`ValueError` and `RuntimeError` in `AppData`, and `TypeError` in the
as-written `days_of_month`. Modules follow the source files:

| module | source |
|---|---|
| `results.dfy` / `Results` | the `Option` and `Result` types |
| `calendar.dfy` / `Calendar` | helpers.py calendar functions and Python's `date` arithmetic |
| `schedule.dfy` / `Schedule` | helpers.py `Month_Dataset`, `Day` |
| `app_data.dfy` / `AppData` | core.py `APP_Data` |
| `textbuffer.dfy` / `TextBuffer` | the editing buffer and `draw` viewport of both text-field files |
| `text_input.dfy` / `TextInput` | text_input.py |
| `curses_textfield.dfy` / `CursesTextfield` | curses_textfield.py |

## Model

| member | source | states |
|---|---|---|
| Calendar.DaysOfMonth | src/timeforge/helpers.py:69-78 | A month has 28 to 31 days. February has 29 exactly in Gregorian leap years and 28 otherwise. April, June, September and November have 30; the other months have 31. |
| Calendar.DaysOfMonthAsWritten | src/timeforge/helpers.py:69-78 | As written, `days_of_month` raises exactly for February, because the short-circuited leap-year call is reached only then. |
| Calendar.AsWrittenDiffersOnlyInFebruary | src/timeforge/helpers.py:74-78 | The as-written function agrees with the intended one in every month except February, where it raises TypeError. |
| Calendar.LeapFebruaryCounterexample | src/timeforge/helpers.py:75 | For February 2024 the intended answer is 29 while the code as written raises. |
| Calendar.BeforeIsOrdinalOrder | src/timeforge/helpers.py:24-25 | `Day.__lt__` compares dates. The field-wise date order is the order of day counts, which is Python's `date` order. |
| Calendar.OrdinalInjective | src/timeforge/helpers.py:100 | Two valid dates are equal exactly when their day counts are, so the `d in dates` membership test compares days. |
| Calendar.BeforeIsStrictTotalOrder | src/timeforge/helpers.py:24-25 | The date order is irreflexive, transitive, total on distinct dates and asymmetric. |
| Calendar.Weekday | src/timeforge/helpers.py:86 | `date.weekday()` is a day of the week from 0 (Monday) to 6 (Sunday); a workday is one of 0 to 4. |
| Calendar.WeekdayNextDay | src/timeforge/helpers.py:86 | For every date, the next calendar day falls on the next weekday, with Sunday (6) followed by Monday (0). |
| Calendar.KnownMonday | src/timeforge/helpers.py:86 | The weekday computation anchors correctly: 1 January 2024 is a Monday (0) and 2 March 2024 a Saturday (5). |
| Calendar.NextDayOrdinal | src/timeforge/core.py:245 | The next calendar day is one day count later. |
| Calendar.AddDaysOrdinal | src/timeforge/core.py:245 | Adding n days one at a time moves the day count by n, which is how Python defines `date + timedelta(days=n)`. |
| Calendar.AddDays | src/timeforge/core.py:245 | `date + timedelta(days=n)` of a calendar date is again a calendar date, so `.replace(day=1)` always has a valid date to work on. |
| Calendar.AddDaysSplit | src/timeforge/core.py:245 | Adding a+b days equals adding a days and then b days. |
| Calendar.AddDaysWithinMonth | src/timeforge/core.py:245 | Adding days that stay inside the month only raises the day number. |
| Calendar.FirstOfNextMonth | src/timeforge/core.py:245 | The first of the month plus 31 days, with the day replaced by 1, is the first of the next month; December rolls over to January of the next year. |
| Calendar.FirstOfNextMonthProof | src/timeforge/core.py:245 | 31 days after the first of a month land in the next month on day 32 minus the month's length, or on 1 January after a December. |
| Calendar.FirstOfNextMonthOrdinal | src/timeforge/core.py:245 | The first of the next month lies exactly one month length after the first of this month. |
| Schedule.MakeTimeblocks | src/timeforge/helpers.py:53-64 | A non-positive total gives no blocks. A positive total gives blocks summing exactly to the total, each in (0, 4]. Every block but the last is its draw, and the last is its draw clamped to the hours left. The block count lies between total/4 and (total+1)/2. |
| Schedule.TwoBlockChance | src/timeforge/helpers.py:90-93 | The pairing probability lies in (0, 1] and equals 1 exactly when the total is at least 20 hours. |
| Schedule.SuggestDay | src/timeforge/helpers.py:82-87 | A returned date comes from the draw just before the remaining draws; it lies in the target month, is a weekday, and is not a holiday. |
| Schedule.SuggestDayFindsFirst | src/timeforge/helpers.py:82-87 | The search fails exactly when no draw names an acceptable date; otherwise every earlier draw named an unacceptable one. |
| Schedule.PlaceDay | src/timeforge/helpers.py:103-113 | A row pairs the last two blocks with the drawn pause when the coin allows and two blocks remain; otherwise it takes the last block alone with no pause. Its end is start + work + pause. |
| Schedule.Generate | src/timeforge/helpers.py:95-114 | With no blocks left the loop adds no row. Every row takes at least one block, so there are never more rows than blocks. The only failure is running out of day draws, the model's form of a search that never returns. |
| Schedule.SuggestDayDrawn | src/timeforge/helpers.py:82-87 | The search fails exactly when the draws name no acceptable date. Otherwise the acceptable dates the draws name are its date together with those the remaining draws name. |
| Schedule.GenerateSucceeds | src/timeforge/helpers.py:97-114 | The loop places every block once the draws name at least as many acceptable dates outside `dates` as there are blocks left, because each new date takes one or two blocks and a repeated date takes none. |
| Schedule.GenerateTakesFromEnd | src/timeforge/helpers.py:97-111 | Every block is popped exactly once, from the end of the list, one or two per row; a pair carries a pause of 2 to 3 hours. |
| Schedule.GenerateDates | src/timeforge/helpers.py:95-102 | Generated dates are pairwise distinct, all acceptable and none among those already used. |
| Schedule.GenerateFollowsChoices | src/timeforge/helpers.py:103-113 | Row i uses the draws of the i-th accepted date: the job, the drawn start, no pause when the coin exceeds the chance, the drawn pause when it does not and a later row exists, and never a pause other than the drawn one. |
| Schedule.TakenFromEndConservesHours | src/timeforge/helpers.py:97-114 | The work hours of the rows add up to the sum of the blocks. |
| Schedule.TakenFromEndCounts | src/timeforge/helpers.py:97-111 | There are at most as many rows as blocks and at least half as many. |
| Schedule.TakenFromEndDayBounds | src/timeforge/helpers.py:103-111 | A row works at most 8 hours and has either no pause or a pause of 2 to 3 hours; a row without a pause holds one block of at most 4 hours. |
| Schedule.AvailableDates | src/timeforge/helpers.py:84-86 | The dates the search can return are exactly the acceptable dates of the month. |
| Schedule.DistinctDatesFit | src/timeforge/helpers.py:98-102 | Rows with distinct dates drawn from a set number at most the size of that set. |
| Schedule.RowsWellFormed | src/timeforge/helpers.py:103-114 | Every row's date is acceptable and its start lies in [8, 12]. Its end is start + work + pause and never later than 23:00, since 12 + 2·4 + 3 = 23. |
| Schedule.RowsPairedAboveThreshold | src/timeforge/helpers.py:90-111 | With a pairing chance of 1, every row except the last has a pause, i.e. two blocks. |
| Schedule.NewMonthDataset | src/timeforge/helpers.py:34-51 | A generated month keeps its year, month and total, and its rows' work sums to the total; there are rows exactly when the total is positive. The rows have distinct dates and are each well formed, and above 20 hours every row but the last is paired. A total larger than 8 hours times the number of available dates cannot be placed. Generation succeeds whenever the day draws name more than total/2 distinct acceptable dates, since there are at most (total+1)/2 blocks. A positive total with a year outside 1..9999 or a month outside 1..12 fails with `InvalidTarget`, and no other failure is `InvalidTarget`. |
| Schedule.GeneratedRows | src/timeforge/helpers.py:95-114 | The rows built from `make_timeblocks`' blocks work exactly the total, exist exactly for a positive total, number at least total/8, have distinct dates, are each well formed, are paired (all but the last) from 20 hours on, and fit into the available dates. |
| Schedule.SortedCons | src/timeforge/helpers.py:24-25 | A row not after the head of a date-sorted list can be put in front of it. |
| Schedule.InsertByDate | src/timeforge/helpers.py:24-25 | Inserting a row into a date-sorted list keeps it sorted and adds exactly that row. |
| Schedule.SortByDate | src/timeforge/helpers.py:24-25 | Sorting with `Day.__lt__` gives a permutation of the rows in which no later row is before an earlier one. |
| Schedule.SortedDistinctIncreasing | src/timeforge/helpers.py:24-25 | Sorted rows with distinct dates have strictly increasing dates. |
| Schedule.InsertKeepsDistinct | src/timeforge/helpers.py:24-25 | Inserting a row whose date is not yet among the sorted rows keeps the dates distinct. |
| Schedule.SortKeepsDistinct | src/timeforge/__main__.py:129 | Sorting rows with distinct dates keeps them distinct. |
| Schedule.SortByDateIncreasing | src/timeforge/__main__.py:127-129 | The generated rows that `sorted(days)` prints are the same rows, with strictly increasing dates. |
| AppData.ParseKey | src/timeforge/core.py:152 | Every Python key string maps to a key whose text is that string. |
| AppData.ParseKeyText | src/timeforge/core.py:152 | Each of the source's key names reads back as its own key. |
| AppData.ParseKeyNamed | src/timeforge/core.py:152 | A string parses to a named key exactly when it is one of the key names, so the strings `set` accepts reach the named keys. |
| AppData.ParseKeyInjective | src/timeforge/core.py:152 | Distinct strings name distinct keys, so the enumeration loses nothing. |
| AppData.TranslationOrderIsTable | src/timeforge/core.py:76-89 | The rendering order lists every translation-table key, each exactly once. |
| AppData.KeyUniverse | src/timeforge/core.py:152 | A key is accepted exactly when it is one of the named keys other than "signature". |
| AppData.Init | src/timeforge/core.py:95-103 | A fresh record holds exactly the seven defaulted keys, with month and year taken from the clock. |
| AppData.InitMissing | src/timeforge/core.py:95-152 | A fresh record misses exactly name, time, personell, salary, organisation, jobs and output. |
| AppData.ConvertInt | src/timeforge/core.py:108-115 | The converter succeeds exactly when `int()` does and returns its result. A failure the converter reports raises ValueError with the key's message. |
| AppData.CheckMonth | src/timeforge/core.py:118-124 | Exactly the values converting to an integer in 1..12 pass, as that integer. A reported conversion failure or an out-of-range month raises ValueError with the month message. |
| AppData.CheckJobs | src/timeforge/core.py:127-130 | Exactly lists of length at least 1 pass, unchanged; everything else raises ValueError. |
| AppData.Validate | src/timeforge/core.py:133-143 | A value passes exactly when it converts to its key's type, and a month must also lie in 1..12. A passing value is stored as the converter's result (`int()`, `float()`, `str()` or `bool()`, and the list itself for jobs); failures are ValueErrors. |
| AppData.Set | src/timeforge/core.py:154-178 | A key outside the universe raises KeyError. A validated key stores the validated value or fails with the validator's error. Any other key stores the value as given. |
| AppData.Get | src/timeforge/core.py:180-205 | Returns the stored value exactly for keys present, and KeyError otherwise. |
| AppData.MissingKeys | src/timeforge/core.py:207-218 | The missing keys are exactly the accepted keys absent from the dataset. |
| AppData.SetThenGet | src/timeforge/core.py:171-205 | After a successful `set`, `get` of the key returns the validated value and every other key is unchanged. |
| AppData.SetShrinksMissing | src/timeforge/core.py:171-218 | A successful `set` removes exactly its key from the missing set, so the set never grows. |
| AppData.SetFailureKinds | src/timeforge/core.py:171-178 | A failing `set` raises KeyError exactly for keys outside the universe, and otherwise a validator's ValueError. |
| AppData.SignatureCannotBeSet | src/timeforge/core.py:150-152 | "signature" is rejected with KeyError although the translation table names it. |
| AppData.InitWellTyped | src/timeforge/core.py:95-103 | A fresh record stores only universe keys, a value of its validator's type under every validated key, and a month in 1..12. |
| AppData.SetPreservesWellTyped | src/timeforge/core.py:171-176 | A successful `set` keeps that invariant. |
| AppData.WriterInvertsTable | src/timeforge/core.py:76-89 | Each form field is written by exactly one translation-table key. |
| AppData.RenderKey | src/timeforge/core.py:237-250 | One table key writes exactly its own fields: all three time fields for "time", the date for "signature", money for "salary", text otherwise. |
| AppData.RenderAll | src/timeforge/core.py:237-250 | The loop writes exactly the fields of the keys it visits. Every written field holds the rendering of the key that writes it: its money, date or text form. |
| AppData.RenderAllLookup | src/timeforge/core.py:237-250 | After the loop over distinct keys, a field holds what its writing key rendered. |
| AppData.Form | src/timeforge/core.py:236-251 | For a complete record, every form field is filled with the rendering of the one key that writes it. |
| AppData.PdfContent | src/timeforge/core.py:220-251 | Raises RuntimeError exactly while keys are missing. A complete record fails only on a date error or a salary `"%.2f"` cannot format, and success implies a numeric salary. On a well-typed complete record it succeeds exactly when the year is in 1..9999 and the next month is representable. On success it fills every field, with the first of the following month as the signature date. |
| AppData.CompleteDataset | src/timeforge/core.py:233-234 | With no key missing, every accepted key is present. |
| AppData.FormValues | src/timeforge/core.py:237-250 | The time value fills 'Std', 'Summe' and 'monatliche SollArbeitszeit', the salary is shown as money, the signature as a date, and every other field as its key's text. |
| AppData.FormFields | src/timeforge/core.py:236-251 | Rendering the translation table in order writes every form field exactly from its own key. |
| TextBuffer.Create | src/timeforge/text_input.py:29-32 | A new field holds the initial string with the cursor after its last character. |
| TextBuffer.Insert | src/timeforge/text_input.py:95-96 | The inserted string goes in at the cursor; the text before the cursor gains it, the text after is untouched, and the cursor advances by its length. |
| TextBuffer.Backspace | src/timeforge/text_input.py:109-111 | Exactly the character before the cursor disappears and the cursor steps back over it. |
| TextBuffer.ToEnd | src/timeforge/text_input.py:142-146 | The text is unchanged and the cursor stands after the last character. |
| TextBuffer.BackspaceUndoesInsert | src/timeforge/text_input.py:95-111 | Backspace after inserting one character restores the field. |
| TextBuffer.BackspaceTimes | src/timeforge/text_input.py:109-111 | n backspaces shorten the text and move the cursor back by n. |
| TextBuffer.BackspaceTimesUndoesInsert | src/timeforge/text_input.py:95-111 | Backspacing once per inserted character restores the field: insert and backspace are inverse. |
| TextBuffer.View | src/timeforge/text_input.py:50-78 | Text that fits is shown whole with the cursor column equal to the cursor. Otherwise a window's worth is shown, and the column stays in [0, width-1] and points at the cursor. The same arithmetic is `draw` in curses_textfield.py. |
| TextBuffer.Visible | src/timeforge/text_input.py:80-81 | The drawn slice fits the window, and for windows at least 3 wide the cursor column shows the character under the cursor. |
| TextInput.Add | src/timeforge/text_input.py:85-102 | The field becomes content[:c] + s + content[c:] with the cursor advanced by len(s), and the keystroke counts as handled. |
| TextInput.Delete | src/timeforge/text_input.py:104-119 | At a positive cursor the preceding character is removed and None returned. At 0 the field is unchanged and KEY_BACKSPACE is returned, and only then. |
| TextInput.MoveRight | src/timeforge/text_input.py:121-140 | Advances by one and returns None before the end; at the end the field is unchanged and KEY_RIGHT is returned. |
| TextInput.MoveLeft | src/timeforge/text_input.py:148-167 | Steps back by one and returns None after the start; at the start the field is unchanged and KEY_LEFT is returned. |
| TextInput.HandleInput | src/timeforge/text_input.py:169-215 | Printable strings are added, KEY_DC and KEY_BACKSPACE delete, and the arrows move. Every other input, newline and tab included, is returned with the field unchanged. |
| TextInput.ReturnedKeysLeaveFieldAlone | src/timeforge/text_input.py:187-215 | Whenever a key is handed back the field is unchanged, and the key is the input itself or an edge key. |
| TextInput.MovesCancel | src/timeforge/text_input.py:134-167 | A successful move right followed by a move left, or the reverse, restores the field. |
| TextInput.TypeThenBackspace | src/timeforge/text_input.py:187-204 | Typing a printable character and then backspace restores the field, and the backspace is reported handled. |
| TextInput.ArrowsKeepContent | src/timeforge/text_input.py:206-212 | Any run of arrow keys leaves the text unchanged. |
| TextInput.FixedAdd | src/timeforge/text_input.py:240-261 | Inserts like `add` and returns KEY_RIGHT exactly when the text reaches the window length, None otherwise. |
| TextInput.FixedMoveRight | src/timeforge/text_input.py:280-299 | Advances only while the cursor is before the last character; otherwise KEY_RIGHT is returned with the field unchanged. |
| TextInput.FixedInput | src/timeforge/text_input.py:218-299 | The inherited dispatcher reaches the fixed field's own `add` and `move_cursor_right`, and `textfield.input` for everything else. |
| TextInput.FixedCursorColumn | src/timeforge/text_input.py:227-238 | The cursor is placed exactly when it lies inside the window, at its own column. |
| TextInput.WidgetInput | src/timeforge/text_input.py:350-364 | A button returns its input unchanged; a text widget applies its field's `input`. |
| CursesTextfield.DeleteQuietly | src/timeforge/curses_textfield.py:95-102 | At a positive cursor the preceding character is removed; at 0 nothing changes. |
| CursesTextfield.HandleInput | src/timeforge/curses_textfield.py:104-154 | Printable strings are inserted and delete keys delete, both returning None. Arrows move or, at an edge, return the key. Unknown integer codes are swallowed with None, and any other input is returned. |
| CursesTextfield.AgreesWithFormField | src/timeforge/curses_textfield.py:104-154 | The older field always leaves the same text and cursor as the form's field. Their answers differ exactly for unknown key codes and for a delete at the start of the text. |
| CursesTextfield.RunsAgree | src/timeforge/curses_textfield.py:104-154 | Feeding both fields the same inputs leaves the same state. |

## Left out

- Randomness: `random.randint` and `random.uniform` are inputs to the model.
  `blockDraw` is a function into [2, 4] and `choice(k)` holds a start hour in
  [8, 12], a coin in [0, 1] and a pause in [2, 3]. The day draws are a
  finite sequence.
- Schedule.Generate: the source can loop for ever in two places.
  `suggest_day_of_month` (helpers.py:82-87) never returns when the month
  has no acceptable date at all. The outer `while timeblocks_left > 0`
  (helpers.py:98-100) never ends when every acceptable date is already in
  `dates` but blocks are left. The model instead consumes a finite stream
  of day draws and returns `OutOfDayDraws` when it runs out, so
  termination is never claimed for the source loops;
  `Schedule.GenerateSucceeds` states when the draws suffice.
- Schedule.SuggestDay: it accepts any draws and treats a day outside the
  month as unacceptable. The source only draws days of the month, and
  `NewMonthDataset` requires that for a year and month of the calendar.
- Schedule.MakeTimeblocks: integer totals only. A fractional total (the
  "time" value is a float) and `time_from_h`'s minute computation are
  floating point and are left out; rows hold whole hours.
- Schedule.NewMonthDataset: with a total of at most 0 hours the source
  builds no date, so any year and month give an empty month; the model
  does the same. With a positive total and a year outside 1..9999 or a
  month outside 1..12, the first date search raises. A month above 12 (or
  below -11) is an IndexError in `days_of_month` (helpers.py:78). Month 0
  reads the last list entry, 31, and `date` then raises ValueError, as it
  does for any other such month or year. The model reports all of these
  as one `InvalidTarget` error. It uses the intended `days_of_month` (see
  Findings). `add_work` is folded into the row construction.
- The holiday list is a set of dates given to the model. The HTTP holiday
  fetch is outside the model.
- AppData.Validate: Python's `int()`, `float()`, `str()` and `bool()` are
  the partial functions of a `Converters` parameter. `try_convert` catches
  only ValueError and TypeError, so `float()` of an int beyond the double
  range raises OverflowError out of `set`. The model has no such error:
  the converter either succeeds or yields the ValueError.
- AppData.ConvertInt: `int()` of an infinite float raises OverflowError.
  `try_convert` (core.py:110-114) catches only ValueError and TypeError, so
  `set` lets it escape for "year" and "personell". The model's converter
  has no such outcome.
- AppData.CheckMonth: the same OverflowError passes `check_month`'s
  `except (ValueError, AssertionError)` (core.py:119-123), so `set("month",
  inf)` raises OverflowError rather than the month's ValueError. The model
  does not represent it.
- AppData.Init: `datetime.now()` becomes the `nowYear`/`nowMonth`
  parameters.
- AppData.PdfContent: rendered values are symbolic (`Text`, `Money`,
  `DateText`), so `str()` and the `"%.2f €"` salary format are not modelled.
  Python's errors from `date(...)` (a non-integer or out-of-range year, the
  overflow after December 9999) are one `DateError`, and the TypeError of
  `"%.2f"` on a non-numeric salary is `FormatError`. When both would
  occur, Python's set iteration order decides which is raised first; the
  model reports `FormatError`.
- Set iteration order: `pdf_content` walks a Python set. The model walks the
  table in a fixed order, which cannot change the result because no two
  keys write the same field (`AppData.WriterInvertsTable`).
- Keys and form fields are enumerations. Any other key string is
  `Unknown(text)`, and `ParseKey` and `KeyText` translate between the two.
- TextBuffer.View: it requires a window at least one column wide, which
  every curses window is.
- The curses calls are not modelled. This covers drawing, the
  window-height check in the constructors, `button.activate`/`deactivate`,
  and the colours.
- Not part of this model:
  - gui.py, `__main__.py`, `main_extensions.py` and `timeforge.py`: the TUI
    and command-line front ends;
  - `PrintDictAsTable` and `PrintListAsTable`: console output;
  - `ProvideOutputFile`: HTTP and PDF I/O;
  - `MonthDataset`: it only raises NotImplementedError;
  - `quit_button`'s `exit(0)`;
  - the import-time `curses.wrapper(main)` demo in curses_textfield.py.

## Findings

| source | as written | input that shows it | evidently intended | confidence | as-written member | corrected member |
|---|---|---|---|---|---|---|
| src/timeforge/helpers.py:69-75 | `year_is_leap_year(year)` is declared without `self` but called as `self.year_is_leap_year(year)`, so every February raises TypeError (two arguments for one parameter) | `days_of_month(2, 2024)` | the Gregorian rule of line 70: 29 days in a leap February, 28 otherwise | not executed | Calendar.DaysOfMonthAsWritten | Calendar.DaysOfMonth |

=== FILE: app_data.dfy ===
/** The validated application record (`APP_Data` in core.py): a finite map
    from a fixed universe of keys to values, per-key validators, the set of
    keys still missing, and the rendering of the record into PDF form fields.

    Python's `int()`, `float()`, `str()` and `bool()` conversions are not
    modelled; they are the partial functions of a `Converters` parameter.
    `datetime.now()` becomes the `nowYear`/`nowMonth` parameters. Rendered
    field values are kept symbolic (`PdfField`), leaving `str()` and the
    `"%.2f"` salary formatting out. Keys and form fields are enumerations
    with their Python strings given by `KeyText` and `FieldText`. */
module AppData {
  import opened Results
  import opened Calendar

  /** The Python values the record holds. */
  datatype Value = VInt(i: int) | VReal(r: real) | VStr(s: string) | VBool(b: bool) | VList(items: seq<Value>)

  /** `int()`, `float()`, `str()` and `bool()`: `None` where Python raises
      ValueError or TypeError. */
  datatype Converters = Converters(
    toInt: Value -> Option<int>,
    toFloat: Value -> Option<real>,
    toStr: Value -> Option<string>,
    toBool: Value -> Option<bool>)

  datatype AppError =
    | KeyError(msg: string)
    | ValueError(msg: string)
    | RuntimeError(msg: string)
      /** `date(...)` or `date + timedelta` raised (bad type, year out of range, overflow). */
    | DateError
      /** `"%.2f" % salary` raised TypeError: the salary is not a number. */
    | FormatError

  const SetKeyMsg := "Key is not in the list of valid keys"
  const GetKeyMsg := "This key was not set in the dataset"
  const MissingMsg := "Error: one or more keys are missing in the dataset"
  const MonthMsg := "Month must be an integer between 1 and 12"
  const JobsMsg := "Jobs argument must be of type list with minimum length of 1"
  const NameMsg := "Name "
  const YearMsg := "Year must be an integer"
  const TimeMsg := "Working time must be a number with the dot '.' as decimal separator"
  const PersonellMsg := "Personell Number must be an integer"
  const SalaryMsg := "Salary time must be a number with the dot '.' as decimal separator"
  const OrganisationMsg := "Organisation name  must be a string or convertible to a string"
  const VerboseMsg := "Verbose must be a boolean (True / False)"

  /** A dataset key: one of the names the source uses, or any other string. */
  datatype Key =
    | Name | Month | Year | Time | Personell | Salary | Organisation
    | SignaturePse | Signature | Holiday | FromLastMonth | ForNextMonth
    | Verbose | Jobs | Output
    | Unknown(text: string)

  function KeyText(k: Key): string {
    match k
    case Name => "name"
    case Month => "month"
    case Year => "year"
    case Time => "time"
    case Personell => "personell"
    case Salary => "salary"
    case Organisation => "organisation"
    case SignaturePse => "signature_pse"
    case Signature => "signature"
    case Holiday => "holiday"
    case FromLastMonth => "from_last_month"
    case ForNextMonth => "for_next_month"
    case Verbose => "verbose"
    case Jobs => "jobs"
    case Output => "output"
    case Unknown(s) => s
  }

  /** The key a Python string names. */
  function ParseKey(s: string): (k: Key)
    ensures KeyText(k) == s
  {
    if s == "name" then Name
    else if s == "month" then Month
    else if s == "year" then Year
    else if s == "time" then Time
    else if s == "personell" then Personell
    else if s == "salary" then Salary
    else if s == "organisation" then Organisation
    else if s == "signature_pse" then SignaturePse
    else if s == "signature" then Signature
    else if s == "holiday" then Holiday
    else if s == "from_last_month" then FromLastMonth
    else if s == "for_next_month" then ForNextMonth
    else if s == "verbose" then Verbose
    else if s == "jobs" then Jobs
    else if s == "output" then Output
    else Unknown(s)
  }

  /** Every name reads back as its own key. */
  lemma ParseKeyText(k: Key)
    ensures !k.Unknown? ==> ParseKey(KeyText(k)) == k
  {
  }

  /** A string names a key exactly when it is one of the names. */
  lemma ParseKeyNamed(s: string)
    ensures ParseKey(s).Unknown? <==> forall n :: n in NamedKeys ==> KeyText(n) != s
  {
    var k := ParseKey(s);
    if k.Unknown? {
      forall n | n in NamedKeys
        ensures KeyText(n) != s
      {
        ParseKeyText(n);
      }
    } else {
      assert k in NamedKeys;
    }
  }

  /** Distinct strings name distinct keys. */
  lemma ParseKeyInjective(a: string, b: string)
    ensures ParseKey(a) == ParseKey(b) <==> a == b
  {
    if ParseKey(a) == ParseKey(b) {
      assert a == KeyText(ParseKey(a));
    }
  }

  /** The PDF form fields the record fills. */
  datatype FormField =
    | GF | Abc | Abdd | Std | Summe | MonthlyTarget | Personalnummer | Stundensatz | OE
    | SignaturePseField | SignatureField | HolidayField | FromLastMonthField | ForNextMonthField

  function FieldText(f: FormField): string {
    match f
    case GF => "GF"
    case Abc => "abc"
    case Abdd => "abdd"
    case Std => "Std"
    case Summe => "Summe"
    case MonthlyTarget => "monatliche SollArbeitszeit"
    case Personalnummer => "Personalnummer"
    case Stundensatz => "Stundensatz"
    case OE => "OE"
    case SignaturePseField => "undefined"
    case SignatureField => "Ich bestätige die Richtigkeit der Angaben"
    case HolidayField => "Urlaub anteilig"
    case FromLastMonthField => "Übertrag vom Vormonat"
    case ForNextMonthField => "Übertrag in den Folgemonat"
  }

  /** A translation-table entry: one PDF field or a list of them. */
  datatype PdfName = One(field: FormField) | Many(fields: seq<FormField>)

  const TimeFields: seq<FormField> := [Std, Summe, MonthlyTarget]

  /** The `translation_table`: the form field(s) a key is written to. */
  function Translation(k: Key): Option<PdfName> {
    match k
    case Name => Some(One(GF))
    case Month => Some(One(Abc))
    case Year => Some(One(Abdd))
    case Time => Some(Many(TimeFields))
    case Personell => Some(One(Personalnummer))
    case Salary => Some(One(Stundensatz))
    case Organisation => Some(One(OE))
    case SignaturePse => Some(One(SignaturePseField))
    case Signature => Some(One(SignatureField))
    case Holiday => Some(One(HolidayField))
    case FromLastMonth => Some(One(FromLastMonthField))
    case ForNextMonth => Some(One(ForNextMonthField))
    case _ => None
  }

  /** The translation table's keys, in the order the model renders them. */
  const TranslationOrder: seq<Key> := [
    Name, Month, Year, Time, Personell, Salary, Organisation,
    SignaturePse, Signature, Holiday, FromLastMonth, ForNextMonth
  ]

  /** A key of the translation table. */
  predicate InTable(k: Key) {
    Translation(k).Some?
  }

  /** A key with a default value in the initial `dataset`. */
  predicate HasDefault(k: Key) {
    k.Verbose? || k.SignaturePse? || k.Holiday? || k.FromLastMonth? || k.ForNextMonth? || k.Month? || k.Year?
  }

  /** A key of the `validation` table. */
  predicate HasValidator(k: Key) {
    k.Name? || k.Year? || k.Month? || k.Time? || k.Personell? || k.Salary? || k.Organisation? || k.Verbose? || k.Jobs?
  }

  /** The `misc_keys`. */
  predicate IsMisc(k: Key) {
    k.Output?
  }

  /** `keys`: every key the record accepts; "signature" is computed by
      `pdf_content`, never set. */
  predicate Accepted(k: Key) {
    (InTable(k) && k != Signature) || HasDefault(k) || HasValidator(k) || IsMisc(k)
  }

  /** Every named key, each once. */
  const NamedKeys: seq<Key> := [
    Name, Month, Year, Time, Personell, Salary, Organisation, SignaturePse,
    Signature, Holiday, FromLastMonth, ForNextMonth, Verbose, Jobs, Output
  ]

  datatype AppData = AppData(dataset: map<Key, Value>)

  /** The rendering order lists each table key exactly once. */
  lemma TranslationOrderIsTable()
    ensures forall k :: InTable(k) <==> k in TranslationOrder
    ensures forall i, j :: 0 <= i < j < |TranslationOrder| ==> TranslationOrder[i] != TranslationOrder[j]
  {
  }

  /** Where a table key stands in the rendering order. */
  function Position(k: Key): (i: nat)
    requires InTable(k)
    ensures i < |TranslationOrder| && TranslationOrder[i] == k
  {
    match k
    case Name => 0
    case Month => 1
    case Year => 2
    case Time => 3
    case Personell => 4
    case Salary => 5
    case Organisation => 6
    case SignaturePse => 7
    case Signature => 8
    case Holiday => 9
    case FromLastMonth => 10
    case ForNextMonth => 11
  }

  /** The key universe: every named key except "signature", and no other
      string. */
  lemma KeyUniverse()
    ensures forall k :: Accepted(k) <==> !k.Unknown? && k != Signature
    ensures forall k :: Accepted(k) ==> k in NamedKeys
  {
  }

  /** `APP_Data()` with the clock's year and month. */
  function Init(nowYear: int, nowMonth: int): (d: AppData)
    ensures forall k :: k in d.dataset <==> HasDefault(k)
    ensures Month in d.dataset && d.dataset[Month] == VInt(nowMonth)
    ensures Year in d.dataset && d.dataset[Year] == VInt(nowYear)
  {
    AppData(map[
      Verbose := VBool(false),
      SignaturePse := VStr(""),
      Holiday := VInt(0),
      FromLastMonth := VInt(0),
      ForNextMonth := VInt(0),
      Month := VInt(nowMonth),
      Year := VInt(nowYear)
    ])
  }

  /** A fresh record still misses exactly the keys without a default. */
  lemma InitMissing(nowYear: int, nowMonth: int)
    ensures forall k :: k in MissingKeys(Init(nowYear, nowMonth)) <==>
      k in {Name, Time, Personell, Salary, Organisation, Jobs, Output}
  {
  }

  // ---------------------------------------------------------------------
  // Validators

  function ConvertInt(v: Value, conv: Converters, msg: string): (r: Result<Value, AppError>)
    ensures r.Ok? <==> conv.toInt(v).Some?
    ensures r.Ok? ==> r.value == VInt(conv.toInt(v).value)
    ensures r.Err? ==> r.error == ValueError(msg)
  {
    match conv.toInt(v)
    case Some(i) => Ok(VInt(i))
    case None => Err(ValueError(msg))
  }

  function ConvertFloat(v: Value, conv: Converters, msg: string): (r: Result<Value, AppError>)
    ensures r.Ok? <==> conv.toFloat(v).Some?
    ensures r.Ok? ==> r.value == VReal(conv.toFloat(v).value)
    ensures r.Err? ==> r.error == ValueError(msg)
  {
    match conv.toFloat(v)
    case Some(x) => Ok(VReal(x))
    case None => Err(ValueError(msg))
  }

  function ConvertStr(v: Value, conv: Converters, msg: string): (r: Result<Value, AppError>)
    ensures r.Ok? <==> conv.toStr(v).Some?
    ensures r.Ok? ==> r.value == VStr(conv.toStr(v).value)
    ensures r.Err? ==> r.error == ValueError(msg)
  {
    match conv.toStr(v)
    case Some(s) => Ok(VStr(s))
    case None => Err(ValueError(msg))
  }

  function ConvertBool(v: Value, conv: Converters, msg: string): (r: Result<Value, AppError>)
    ensures r.Ok? <==> conv.toBool(v).Some?
    ensures r.Ok? ==> r.value == VBool(conv.toBool(v).value)
    ensures r.Err? ==> r.error == ValueError(msg)
  {
    match conv.toBool(v)
    case Some(b) => Ok(VBool(b))
    case None => Err(ValueError(msg))
  }

  /** `check_month`: exactly the values converting to an integer in 1..12
      pass, as that integer; every failure carries the same message. */
  function CheckMonth(v: Value, conv: Converters): (r: Result<Value, AppError>)
    ensures r.Ok? <==> conv.toInt(v).Some? && 1 <= conv.toInt(v).value <= 12
    ensures r.Ok? ==> r.value == VInt(conv.toInt(v).value)
    ensures r.Err? ==> r.error == ValueError(MonthMsg)
  {
    match ConvertInt(v, conv, "")
    case Err(_) => Err(ValueError(MonthMsg))
    case Ok(m) => if 1 <= m.i <= 12 then Ok(m) else Err(ValueError(MonthMsg))
  }

  /** `check_jobs`: only a list with at least one entry passes, unchanged. */
  function CheckJobs(v: Value): (r: Result<Value, AppError>)
    ensures r.Ok? <==> v.VList? && |v.items| >= 1
    ensures r.Ok? ==> r.value == v
    ensures r.Err? ==> r.error == ValueError(JobsMsg)
  {
    if v.VList? && |v.items| >= 1 then Ok(v) else Err(ValueError(JobsMsg))
  }

  /** The Python type a validated key's value is converted to. */
  datatype Kind = IntKind | RealKind | StrKind | BoolKind | ListKind

  function KindOf(key: Key): Kind
    requires HasValidator(key)
  {
    match key
    case Name => StrKind
    case Organisation => StrKind
    case Year => IntKind
    case Month => IntKind
    case Personell => IntKind
    case Time => RealKind
    case Salary => RealKind
    case Verbose => BoolKind
    case Jobs => ListKind
  }

  predicate HasKind(v: Value, k: Kind) {
    match k
    case IntKind => v.VInt?
    case RealKind => v.VReal?
    case StrKind => v.VStr?
    case BoolKind => v.VBool?
    case ListKind => v.VList?
  }

  /** Whether the converter for a kind accepts a value. */
  predicate Converts(v: Value, k: Kind, conv: Converters) {
    match k
    case IntKind => conv.toInt(v).Some?
    case RealKind => conv.toFloat(v).Some?
    case StrKind => conv.toStr(v).Some?
    case BoolKind => conv.toBool(v).Some?
    case ListKind => v.VList? && |v.items| >= 1
  }

  /** The `validation` table applied to a value: the value passes exactly
      when it converts to the key's type (a month also has to lie in
      1..12), and is stored as the converter's result; failures are
      ValueErrors. */
  function Validate(key: Key, v: Value, conv: Converters): (r: Result<Value, AppError>)
    requires HasValidator(key)
    ensures r.Ok? <==> Converts(v, KindOf(key), conv) && (key == Month ==> 1 <= conv.toInt(v).value <= 12)
    ensures r.Ok? ==> HasKind(r.value, KindOf(key))
    ensures r.Ok? ==> r.value == match KindOf(key)
      case IntKind => VInt(conv.toInt(v).value)
      case RealKind => VReal(conv.toFloat(v).value)
      case StrKind => VStr(conv.toStr(v).value)
      case BoolKind => VBool(conv.toBool(v).value)
      case ListKind => v
    ensures r.Ok? && key == Month ==> 1 <= r.value.i <= 12
    ensures r.Ok? && key == Jobs ==> r.value == v
    ensures r.Err? ==> r.error.ValueError?
  {
    match key
    case Name => ConvertStr(v, conv, NameMsg)
    case Year => ConvertInt(v, conv, YearMsg)
    case Month => CheckMonth(v, conv)
    case Time => ConvertFloat(v, conv, TimeMsg)
    case Personell => ConvertInt(v, conv, PersonellMsg)
    case Salary => ConvertFloat(v, conv, SalaryMsg)
    case Organisation => ConvertStr(v, conv, OrganisationMsg)
    case Verbose => ConvertBool(v, conv, VerboseMsg)
    case Jobs => CheckJobs(v)
  }

  // ---------------------------------------------------------------------
  // set / get / missing_keys

  /** `set(key, value)`: keys outside the universe raise KeyError, values
      for validated keys are stored as validated, the rest as given. A
      Python string `s` is the key `ParseKey(s)`. */
  function Set(d: AppData, key: Key, v: Value, conv: Converters): (r: Result<AppData, AppError>)
    ensures !Accepted(key) ==> r == Err(KeyError(SetKeyMsg))
    ensures Accepted(key) && !HasValidator(key) ==> r == Ok(AppData(d.dataset[key := v]))
    ensures HasValidator(key) ==> (r.Ok? <==> Validate(key, v, conv).Ok?)
    ensures HasValidator(key) && r.Ok? ==> r.value == AppData(d.dataset[key := Validate(key, v, conv).value])
    ensures r.Err? && Accepted(key) ==> r.error == Validate(key, v, conv).error
  {
    if Accepted(key) then
      if HasValidator(key) then
        match Validate(key, v, conv)
        case Ok(w) => Ok(AppData(d.dataset[key := w]))
        case Err(e) => Err(e)
      else Ok(AppData(d.dataset[key := v]))
    else Err(KeyError(SetKeyMsg))
  }

  /** `get(key)`: the stored value, or KeyError for a key never set. */
  function Get(d: AppData, key: Key): (r: Result<Value, AppError>)
    ensures r.Ok? <==> key in d.dataset
    ensures r.Ok? ==> r.value == d.dataset[key]
    ensures r.Err? ==> r.error == KeyError(GetKeyMsg)
  {
    if key in d.dataset then Ok(d.dataset[key]) else Err(KeyError(GetKeyMsg))
  }

  /** `missing_keys()`: the keys of the universe not yet in the dataset. */
  function MissingKeys(d: AppData): (m: set<Key>)
    ensures forall k :: k in m <==> Accepted(k) && k !in d.dataset
  {
    KeyUniverse();
    set k | k in NamedKeys && Accepted(k) && k !in d.dataset
  }

  /** A successful `set` changes only its own key, which `get` then returns
      validated. */
  lemma SetThenGet(d: AppData, key: Key, v: Value, conv: Converters, other: Key)
    requires Set(d, key, v, conv).Ok?
    ensures Get(Set(d, key, v, conv).value, key) == Ok(if HasValidator(key) then Validate(key, v, conv).value else v)
    ensures other != key ==> Get(Set(d, key, v, conv).value, other) == Get(d, other)
  {
  }

  /** A successful `set` removes exactly its key from the missing ones, so
      the missing set never grows. */
  lemma SetShrinksMissing(d: AppData, key: Key, v: Value, conv: Converters)
    requires Set(d, key, v, conv).Ok?
    ensures MissingKeys(Set(d, key, v, conv).value) == MissingKeys(d) - {key}
  {
    var w := if HasValidator(key) then Validate(key, v, conv).value else v;
    assert Set(d, key, v, conv).value == AppData(d.dataset[key := w]);
    MissingAfterStoring(d, key, w);
  }

  lemma MissingAfterStoring(d: AppData, key: Key, w: Value)
    ensures MissingKeys(AppData(d.dataset[key := w])) == MissingKeys(d) - {key}
  {
    var d' := AppData(d.dataset[key := w]);
    forall k
      ensures k in MissingKeys(d') <==> k in MissingKeys(d) - {key}
    {
    }
  }

  /** A failing `set` is a KeyError exactly for keys outside the universe,
      and a validator's ValueError otherwise. */
  lemma SetFailureKinds(d: AppData, key: Key, v: Value, conv: Converters)
    requires Set(d, key, v, conv).Err?
    ensures !Accepted(key) <==> Set(d, key, v, conv).error.KeyError?
    ensures Accepted(key) ==> HasValidator(key) && Set(d, key, v, conv).error.ValueError?
  {
  }

  /** "signature" is rejected although the translation table names it. */
  lemma SignatureCannotBeSet(d: AppData, v: Value, conv: Converters)
    ensures ParseKey("signature") == Signature
    ensures Set(d, ParseKey("signature"), v, conv) == Err(KeyError(SetKeyMsg))
  {
  }

  /** The invariant `set` keeps: only universe keys are stored, every
      validated key holds a value of its type, and the month lies in 1..12. */
  predicate WellTyped(d: AppData) {
    && (forall k :: k in d.dataset ==> Accepted(k))
    && (forall k :: k in d.dataset && HasValidator(k) ==> HasKind(d.dataset[k], KindOf(k)))
    && (Month in d.dataset ==> d.dataset[Month].VInt? && 1 <= d.dataset[Month].i <= 12)
  }

  /** What `"%.2f"` formats: an int, a float, or a bool (a Python int). */
  predicate Numeric(v: Value) {
    v.VInt? || v.VReal? || v.VBool?
  }

  lemma InitWellTyped(nowYear: int, nowMonth: int)
    requires 1 <= nowMonth <= 12
    ensures WellTyped(Init(nowYear, nowMonth))
  {
  }

  lemma SetPreservesWellTyped(d: AppData, key: Key, v: Value, conv: Converters)
    requires WellTyped(d)
    requires Set(d, key, v, conv).Ok?
    ensures WellTyped(Set(d, key, v, conv).value)
  {
  }

  // ---------------------------------------------------------------------
  // pdf_content

  /** A rendered form value: `str(value)`, the `"%.2f €"` salary text, or
      the `str()` of a date. */
  datatype PdfField = Text(v: Value) | Money(v: Value) | DateText(date: Date)

  function FieldsOf(p: PdfName): seq<FormField> {
    match p
    case One(f) => [f]
    case Many(fs) => fs
  }

  /** The one key that writes each field. */
  function Writer(f: FormField): Key {
    match f
    case GF => Name
    case Abc => Month
    case Abdd => Year
    case Std => Time
    case Summe => Time
    case MonthlyTarget => Time
    case Personalnummer => Personell
    case Stundensatz => Salary
    case OE => Organisation
    case SignaturePseField => SignaturePse
    case SignatureField => Signature
    case HolidayField => Holiday
    case FromLastMonthField => FromLastMonth
    case ForNextMonthField => ForNextMonth
  }

  /** `Writer` inverts the translation table: a table key writes exactly
      the fields whose writer it is, so no two keys share a field. */
  lemma WriterInvertsTable(key: Key, f: FormField)
    requires Translation(key).Some?
    ensures f in FieldsOf(Translation(key).value) <==> Writer(f) == key
  {
  }

  /** What a key's fields show: the signature date, the salary as money,
      any other value as text. */
  function Rendered(ds: map<Key, Value>, key: Key, signature: Date): PdfField
    requires key != Signature ==> key in ds
  {
    if key == Signature then DateText(signature)
    else if key == Salary then Money(ds[key])
    else Text(ds[key])
  }

  /** The fields one translation-table key writes. */
  function RenderKey(ds: map<Key, Value>, key: Key, signature: Date): (m: map<FormField, PdfField>)
    requires Translation(key).Some?
    requires key != Signature ==> key in ds
    ensures forall f :: f in m <==> Writer(f) == key
    ensures forall f :: f in m ==> m[f] == Rendered(ds, key, signature)
  {
    forall f
      ensures f in FieldsOf(Translation(key).value) <==> Writer(f) == key
    {
      WriterInvertsTable(key, f);
    }
    match Translation(key).value
    case Many(fields) => map f | f in fields :: Text(ds[key])
    case One(field) =>
      if key == Signature then map[field := DateText(signature)]
      else if key == Salary then map[field := Money(ds[key])]
      else map[field := Text(ds[key])]
  }

  predicate Renderable(ds: map<Key, Value>, keys: seq<Key>) {
    forall i :: 0 <= i < |keys| ==> Translation(keys[i]).Some? && (keys[i] != Signature ==> keys[i] in ds)
  }

  /** The loop over the translation table: the fields written are those of
      the keys visited, and each holds its own writer's rendering. */
  function RenderAll(ds: map<Key, Value>, keys: seq<Key>, signature: Date): (m: map<FormField, PdfField>)
    requires Renderable(ds, keys)
    ensures forall f :: f in m <==> exists i :: 0 <= i < |keys| && keys[i] == Writer(f)
    ensures forall f :: f in m ==> Writer(f) != Signature ==> Writer(f) in ds
    ensures forall f :: f in m ==> m[f] == Rendered(ds, Writer(f), signature)
    decreases |keys|
  {
    if |keys| == 0 then map[]
    else RenderAll(ds, keys[..|keys| - 1], signature) + RenderKey(ds, keys[|keys| - 1], signature)
  }

  /** Each field holds the rendering of the one key that writes it, when
      that key is rendered once. */
  lemma {:induction false} RenderAllLookup(ds: map<Key, Value>, keys: seq<Key>, signature: Date, i: int, f: FormField)
    requires Renderable(ds, keys)
    requires forall a, b :: 0 <= a < b < |keys| ==> keys[a] != keys[b]
    requires 0 <= i < |keys| && Writer(f) == keys[i]
    ensures f in RenderAll(ds, keys, signature)
    ensures RenderAll(ds, keys, signature)[f] == RenderKey(ds, keys[i], signature)[f]
    decreases |keys|
  {
    var last := |keys| - 1;
    var prefix := keys[..last];
    if i < last {
      assert keys[i] != keys[last];
      assert Renderable(ds, prefix) by {
        forall a | 0 <= a < |prefix|
          ensures Translation(prefix[a]).Some? && (prefix[a] != Signature ==> prefix[a] in ds)
        {
          assert prefix[a] == keys[a];
        }
      }
      assert prefix[i] == keys[i];
      RenderAllLookup(ds, prefix, signature, i, f);
    }
  }

  /** Every accepted key is set. */
  ghost predicate Complete(ds: map<Key, Value>) {
    forall k :: Accepted(k) ==> k in ds
  }

  /** The month after (year, month), as Python's `date` writes it. */
  function NextMonthStart(year: int, month: int): Date {
    if month == 12 then Date(year + 1, 1, 1) else Date(year, month + 1, 1)
  }

  /** The filled form of a complete dataset: every form field holds the
      rendering of the one key the translation table maps to it. */
  function Form(ds: map<Key, Value>, signature: Date): (m: map<FormField, PdfField>)
    requires Complete(ds)
    ensures forall f :: Writer(f) != Signature ==> Writer(f) in ds
    ensures forall f :: f in m && m[f] == Rendered(ds, Writer(f), signature)
  {
    var m := RenderAll(ds, TranslationOrder, signature);
    FormFields(ds, signature);
    assert forall f :: f in m && m[f] == Rendered(ds, Writer(f), signature);
    m
  }

  /** `pdf_content()`: refuses while keys are missing; a salary `"%.2f"`
      cannot format or a date the calendar cannot represent fails;
      otherwise every form field holds its key's rendering, with the first
      day of the following month as the signature date. */
  function PdfContent(d: AppData): (r: Result<map<FormField, PdfField>, AppError>)
    ensures r == Err(RuntimeError(MissingMsg)) <==> MissingKeys(d) != {}
    ensures WellTyped(d) && MissingKeys(d) == {} ==>
      (r.Ok? <==> MinYear <= d.dataset[Year].i <= MaxYear && !(d.dataset[Year].i == MaxYear && d.dataset[Month].i == 12))
    ensures MissingKeys(d) == {} && r.Err? ==> r.error == DateError || r.error == FormatError
    ensures r.Ok? ==> Numeric(d.dataset[Salary])
    ensures r.Ok? ==>
      && Complete(d.dataset) && d.dataset[Year].VInt? && d.dataset[Month].VInt?
      && r.value == Form(d.dataset, NextMonthStart(d.dataset[Year].i, d.dataset[Month].i))
  {
    if MissingKeys(d) != {} then Err(RuntimeError(MissingMsg))
    else
      CompleteDataset(d);
      if !Numeric(d.dataset[Salary]) then Err(FormatError)
      else
        var year := d.dataset[Year];
        var month := d.dataset[Month];
        if !(year.VInt? && month.VInt?) then Err(DateError)
        else if !(MinYear <= year.i <= MaxYear && 1 <= month.i <= 12) then Err(DateError)
        else
          var signature := FirstOfNextMonth(year.i, month.i);
          if signature.year > MaxYear then Err(DateError)
          else
            assert signature == NextMonthStart(year.i, month.i);
            Ok(Form(d.dataset, signature))
  }

  /** With no key missing, every accepted key is in the dataset. */
  lemma CompleteDataset(d: AppData)
    requires MissingKeys(d) == {}
    ensures Complete(d.dataset)
  {
    forall k | Accepted(k)
      ensures k in d.dataset
    {
      assert k !in MissingKeys(d);
    }
  }

  /** The values a filled form shows: the time value in all three time
      fields, the salary as money, the signature date, every other key's
      value as text. */
  lemma FormValues(ds: map<Key, Value>, signature: Date)
    requires Complete(ds)
    ensures forall f :: f in TimeFields ==> Form(ds, signature)[f] == Text(ds[Time])
    ensures Form(ds, signature)[Stundensatz] == Money(ds[Salary])
    ensures Form(ds, signature)[SignatureField] == DateText(signature)
    ensures forall f :: Writer(f) !in {Time, Signature, Salary} ==> Form(ds, signature)[f] == Text(ds[Writer(f)])
  {
    FormShows(ds, signature, Form(ds, signature));
  }

  lemma FormShows(ds: map<Key, Value>, signature: Date, m: map<FormField, PdfField>)
    requires Complete(ds)
    requires forall f :: f in m && m[f] == Rendered(ds, Writer(f), signature)
    ensures forall f :: f in TimeFields ==> m[f] == Text(ds[Time])
    ensures m[Stundensatz] == Money(ds[Salary])
    ensures m[SignatureField] == DateText(signature)
    ensures forall f :: Writer(f) !in {Time, Signature, Salary} ==> m[f] == Text(ds[Writer(f)])
  {
    assert Writer(Stundensatz) == Salary && Writer(SignatureField) == Signature;
    assert m[Stundensatz] == Rendered(ds, Salary, signature);
    assert m[SignatureField] == Rendered(ds, Signature, signature);
  }

  /** Rendering the translation table in order writes every form field,
      each with the rendering of the one key that writes it. */
  lemma FormFields(ds: map<Key, Value>, signature: Date)
    requires Complete(ds)
    ensures Renderable(ds, TranslationOrder)
    ensures forall f :: Writer(f) != Signature ==> Writer(f) in ds
    ensures var m := RenderAll(ds, TranslationOrder, signature);
      forall f :: f in m && m[f] == Rendered(ds, Writer(f), signature)
  {
    TranslationOrderIsTable();
    KeyUniverse();
    var m := RenderAll(ds, TranslationOrder, signature);
    forall f | true
      ensures f in m && m[f] == Rendered(ds, Writer(f), signature)
    {
      RenderAllLookup(ds, TranslationOrder, signature, Position(Writer(f)), f);
    }
  }
}

=== FILE: calendar.dfy ===
/** Calendar arithmetic used by the month-schedule generator and by the
    application record: the Gregorian leap-year rule, month lengths, and the
    day-count ("ordinal") representation that Python's `datetime.date` uses
    for comparison, weekdays and `date + timedelta(days = n)`. */
module Calendar {
  import opened Results

  datatype Date = Date(year: int, month: int, day: int)

  /** The range of years Python's `date` accepts. */
  const MinYear := 1
  const MaxYear := 9999

  /** Lengths of January .. December in a common year. */
  const MonthLengths: seq<int> := [31, 28, 31, 30, 31, 30, 31, 31, 30, 31, 30, 31]

  /** The Gregorian rule. Python's `%` floors and Dafny's `%` is Euclidean;
      for the positive divisors used here both give a remainder in [0, d),
      so the rule agrees for every integer year. */
  predicate IsLeapYear(year: int) {
    (year % 4 == 0 && year % 100 != 0) || year % 400 == 0
  }

  function DaysInYear(year: int): int {
    if IsLeapYear(year) then 366 else 365
  }

  /** `days_of_month` with the intended leap-year test. */
  function DaysOfMonth(month: int, year: int): (n: int)
    requires 1 <= month <= 12
    ensures 28 <= n <= 31
    ensures month == 2 ==> (n == 29 <==> IsLeapYear(year)) && (n == 28 <==> !IsLeapYear(year))
    ensures month in {4, 6, 9, 11} ==> n == 30
    ensures month in {1, 3, 5, 7, 8, 10, 12} ==> n == 31
  {
    if month == 2 && IsLeapYear(year) then 29 else MonthLengths[month - 1]
  }

  /** The error `days_of_month` raises as written. */
  datatype CallError = TypeError

  /** `days_of_month` AS WRITTEN: `year_is_leap_year` is declared without
      `self`, so `self.year_is_leap_year(year)` passes two arguments to a
      one-parameter function and raises a TypeError. Python's `and`
      short-circuits, so the call only happens for February. */
  function DaysOfMonthAsWritten(month: int, year: int): (r: Result<int, CallError>)
    requires 1 <= month <= 12
    ensures r.Err? <==> month == 2
  {
    if month == 2 then Err(TypeError) else Ok(MonthLengths[month - 1])
  }

  /** The as-written function fails for every February and agrees with the
      intended one in every other month. */
  lemma AsWrittenDiffersOnlyInFebruary(month: int, year: int)
    requires 1 <= month <= 12
    ensures month != 2 ==> DaysOfMonthAsWritten(month, year) == Ok(DaysOfMonth(month, year))
    ensures month == 2 ==> DaysOfMonthAsWritten(month, year) == Err(TypeError)
  {
  }

  /** The concrete counterexample: February 2024 has 29 days, but the
      as-written code raises instead of answering. */
  lemma LeapFebruaryCounterexample()
    ensures DaysOfMonth(2, 2024) == 29
    ensures DaysOfMonthAsWritten(2, 2024).Err?
  {
  }

  /** A date on the proleptic Gregorian calendar with no upper year bound
      (used for arithmetic), and a date Python's `date` can represent. */
  predicate CalendarDate(d: Date) {
    d.year >= MinYear && 1 <= d.month <= 12 && 1 <= d.day <= DaysOfMonth(d.month, d.year)
  }

  predicate ValidDate(d: Date) {
    CalendarDate(d) && d.year <= MaxYear
  }

  /** Days in the years before `year` (Python's `_days_before_year`). */
  function DaysBeforeYear(year: int): int
    requires year >= 1
  {
    var n := year - 1;
    n * 365 + n / 4 - n / 100 + n / 400
  }

  /** Days in the months of `year` before `month` (Python's `_days_before_month`). */
  function DaysBeforeMonth(year: int, month: int): int
    requires 1 <= month <= 12
  {
    [0, 31, 59, 90, 120, 151, 181, 212, 243, 273, 304, 334][month - 1]
      + (if month > 2 && IsLeapYear(year) then 1 else 0)
  }

  /** `date.toordinal()`: 1 January of year 1 is day 1. */
  function Ordinal(d: Date): int
    requires CalendarDate(d)
  {
    DaysBeforeYear(d.year) + DaysBeforeMonth(d.year, d.month) + d.day
  }

  /** `date.weekday()`: 0 is Monday, 6 is Sunday. */
  function Weekday(d: Date): (w: int)
    requires CalendarDate(d)
    ensures 0 <= w <= 6
  {
    (Ordinal(d) + 6) % 7
  }

  predicate IsWorkday(d: Date)
    requires CalendarDate(d)
  {
    Weekday(d) <= 4
  }

  lemma DaysBeforeYearStep(year: int)
    requires year >= 1
    ensures DaysBeforeYear(year + 1) == DaysBeforeYear(year) + DaysInYear(year)
  {
    var n := year - 1;
    QuotientStep4(n);
    QuotientStep100(n);
    QuotientStep400(n);
  }

  /** One more year adds one to a quotient exactly when the year is a multiple. */
  lemma QuotientStep4(n: int)
    requires n >= 0
    ensures (n + 1) / 4 == n / 4 + (if (n + 1) % 4 == 0 then 1 else 0)
  {
  }

  lemma QuotientStep100(n: int)
    requires n >= 0
    ensures (n + 1) / 100 == n / 100 + (if (n + 1) % 100 == 0 then 1 else 0)
  {
  }

  lemma QuotientStep400(n: int)
    requires n >= 0
    ensures (n + 1) / 400 == n / 400 + (if (n + 1) % 400 == 0 then 1 else 0)
  {
  }

  lemma DaysBeforeMonthStep(year: int, month: int)
    requires 1 <= month <= 12
    ensures month < 12 ==> DaysBeforeMonth(year, month + 1) == DaysBeforeMonth(year, month) + DaysOfMonth(month, year)
    ensures month == 12 ==> DaysBeforeMonth(year, month) + DaysOfMonth(month, year) == DaysInYear(year)
  {
  }

  /** The ordinals of later years start after every day of earlier years. */
  lemma {:induction false} DaysBeforeYearGrows(y1: int, y2: int)
    requires 1 <= y1 < y2
    ensures DaysBeforeYear(y2) >= DaysBeforeYear(y1) + DaysInYear(y1)
    decreases y2 - y1
  {
    DaysBeforeYearStep(y1);
    if y1 + 1 < y2 {
      DaysBeforeYearGrows(y1 + 1, y2);
    }
  }

  lemma {:induction false} DaysBeforeMonthGrows(year: int, m1: int, m2: int)
    requires 1 <= m1 < m2 <= 12
    ensures DaysBeforeMonth(year, m2) >= DaysBeforeMonth(year, m1) + DaysOfMonth(m1, year)
    decreases m2 - m1
  {
    DaysBeforeMonthStep(year, m1);
    if m1 + 1 < m2 {
      DaysBeforeMonthGrows(year, m1 + 1, m2);
    }
  }

  /** A date's ordinal lies within its year's block of ordinals. */
  lemma OrdinalWithinYear(d: Date)
    requires CalendarDate(d)
    ensures DaysBeforeYear(d.year) < Ordinal(d) <= DaysBeforeYear(d.year) + DaysInYear(d.year)
  {
    DaysBeforeMonthStep(d.year, 12);
    if d.month < 12 {
      DaysBeforeMonthGrows(d.year, d.month, 12);
    }
  }

  /** `Day.__lt__` compares dates, and Python compares dates field by field. */
  predicate Before(a: Date, b: Date) {
    a.year < b.year
    || (a.year == b.year && a.month < b.month)
    || (a.year == b.year && a.month == b.month && a.day < b.day)
  }

  /** Field-wise comparison is the order of ordinals, so `Before` is the order
      Python's `date.__lt__` implements. */
  lemma BeforeIsOrdinalOrder(a: Date, b: Date)
    requires CalendarDate(a) && CalendarDate(b)
    ensures Before(a, b) <==> Ordinal(a) < Ordinal(b)
  {
    OrdinalWithinYear(a);
    OrdinalWithinYear(b);
    if a.year < b.year {
      DaysBeforeYearGrows(a.year, b.year);
    } else if b.year < a.year {
      DaysBeforeYearGrows(b.year, a.year);
    } else if a.month < b.month {
      DaysBeforeMonthGrows(a.year, a.month, b.month);
    } else if b.month < a.month {
      DaysBeforeMonthGrows(a.year, b.month, a.month);
    }
  }

  /** Distinct dates have distinct ordinals. */
  lemma OrdinalInjective(a: Date, b: Date)
    requires CalendarDate(a) && CalendarDate(b)
    ensures Ordinal(a) == Ordinal(b) <==> a == b
  {
    BeforeIsOrdinalOrder(a, b);
    BeforeIsOrdinalOrder(b, a);
  }

  /** `Before` is a strict total order on dates. */
  lemma BeforeIsStrictTotalOrder(a: Date, b: Date, c: Date)
    ensures !Before(a, a)
    ensures Before(a, b) && Before(b, c) ==> Before(a, c)
    ensures a != b ==> Before(a, b) || Before(b, a)
    ensures Before(a, b) ==> !Before(b, a)
  {
  }

  /** The day after `d`. */
  function NextDay(d: Date): (r: Date)
    requires CalendarDate(d)
    ensures CalendarDate(r)
  {
    if d.day < DaysOfMonth(d.month, d.year) then
      Date(d.year, d.month, d.day + 1)
    else if d.month < 12 then
      Date(d.year, d.month + 1, 1)
    else
      Date(d.year + 1, 1, 1)
  }

  /** The day after `d` is the next ordinal. */
  lemma NextDayOrdinal(d: Date)
    requires CalendarDate(d)
    ensures Ordinal(NextDay(d)) == Ordinal(d) + 1
  {
    DaysBeforeMonthStep(d.year, d.month);
    if d.day == DaysOfMonth(d.month, d.year) && d.month == 12 {
      DaysBeforeYearStep(d.year);
    }
  }

  /** `d + timedelta(days = n)`, taken one day at a time. */
  function AddDays(d: Date, n: nat): (r: Date)
    requires CalendarDate(d)
    ensures CalendarDate(r)
    decreases n
  {
    if n == 0 then d else AddDays(NextDay(d), n - 1)
  }

  /** Adding n days moves the ordinal by n, which is how Python defines
      `date + timedelta(days = n)`. */
  lemma {:induction false} AddDaysOrdinal(d: Date, n: nat)
    requires CalendarDate(d)
    ensures Ordinal(AddDays(d, n)) == Ordinal(d) + n
    decreases n
  {
    if n > 0 {
      NextDayOrdinal(d);
      AddDaysOrdinal(NextDay(d), n - 1);
    }
  }

  lemma {:induction false} AddDaysWithinMonth(d: Date, n: nat)
    requires CalendarDate(d)
    requires d.day + n <= DaysOfMonth(d.month, d.year)
    ensures AddDays(d, n) == Date(d.year, d.month, d.day + n)
    decreases n
  {
    if n > 0 {
      AddDaysWithinMonth(NextDay(d), n - 1);
    }
  }

  lemma {:induction false} AddDaysSplit(d: Date, a: nat, b: nat)
    requires CalendarDate(d)
    ensures AddDays(d, a + b) == AddDays(AddDays(d, a), b)
    decreases a
  {
    if a > 0 {
      AddDaysSplit(NextDay(d), a - 1, b);
    }
  }

  /** First day of the month after (year, month), computed as the source does
      it: the first of the month plus 31 days, with the day replaced by 1. */
  function FirstOfNextMonth(year: int, month: int): (r: Date)
    requires year >= MinYear && 1 <= month <= 12
    ensures CalendarDate(r) && r.day == 1
    ensures month < 12 ==> r.year == year && r.month == month + 1
    ensures month == 12 ==> r.year == year + 1 && r.month == 1
  {
    var later := AddDays(Date(year, month, 1), 31);
    FirstOfNextMonthProof(year, month);
    Date(later.year, later.month, 1)
  }

  lemma FirstOfNextMonthProof(year: int, month: int)
    requires year >= MinYear && 1 <= month <= 12
    ensures var later := AddDays(Date(year, month, 1), 31);
            && (month < 12 ==> later == Date(year, month + 1, 32 - DaysOfMonth(month, year)))
            && (month == 12 ==> later == Date(year + 1, 1, 1))
  {
    var first := Date(year, month, 1);
    var len := DaysOfMonth(month, year);
    var last := Date(year, month, len);
    AddDaysSplit(first, len - 1, 32 - len);
    AddDaysWithinMonth(first, len - 1);
    var next := NextDay(last);
    assert AddDays(last, 32 - len) == AddDays(next, 31 - len);
    AddDaysWithinMonth(next, 31 - len);
  }

  /** The first of the next month is exactly one month length after the
      first of this month. */
  lemma FirstOfNextMonthOrdinal(year: int, month: int)
    requires year >= MinYear && 1 <= month <= 12
    ensures Ordinal(FirstOfNextMonth(year, month)) == Ordinal(Date(year, month, 1)) + DaysOfMonth(month, year)
  {
    var r := FirstOfNextMonth(year, month);
    DaysBeforeMonthStep(year, month);
    if month == 12 {
      assert r == Date(year + 1, 1, 1);
      DaysBeforeYearStep(year);
    } else {
      assert r == Date(year, month + 1, 1);
    }
  }

  /** The day after a date falls on the next day of the week, Sunday
      wrapping round to Monday. */
  lemma WeekdayNextDay(d: Date)
    requires CalendarDate(d)
    ensures Weekday(NextDay(d)) == (Weekday(d) + 1) % 7
  {
    NextDayOrdinal(d);
    ModSuccessor(Ordinal(d) + 6, Ordinal(NextDay(d)) + 6);
  }

  lemma ModSuccessor(x: int, y: int)
    requires y == x + 1
    ensures y % 7 == (x % 7 + 1) % 7
  {
  }

  /** 1 January 2024 was a Monday and 2 March 2024 a Saturday. */
  lemma KnownMonday()
    ensures Weekday(Date(2024, 1, 1)) == 0
    ensures Weekday(Date(2024, 3, 2)) == 5
  {
  }
}

=== FILE: curses_textfield.dfy ===
/** The earlier single text field of `curses_textfield.py`. It edits the
    same buffer as the form's scrolling field and draws it with the same
    viewport arithmetic (`TextBuffer.View`), but its `input` swallows what
    the newer field hands back: a backspace at the start of the text and any
    unknown key code return `None`. */
module CursesTextfield {
  import opened Results
  import opened TextBuffer
  import TextInput

  /** `_delete`: the character before the cursor goes; at the start of the
      text nothing happens. */
  function DeleteQuietly(f: Field): (r: Field)
    requires Valid(f)
    ensures Valid(r)
    ensures f.cursor == 0 ==> r == f
    ensures f.cursor > 0 ==> r.cursor == f.cursor - 1 && |r.content| == |f.content| - 1
    ensures f.cursor > 0 ==> r.content[..r.cursor] == f.content[..f.cursor - 1] && r.content[r.cursor..] == f.content[f.cursor..]
  {
    if f.cursor > 0 then Backspace(f) else f
  }

  /** `input`: printable strings are inserted at the cursor; every integer
      key is consumed (a deleting key deletes, an arrow moves unless the
      cursor is at that edge, in which case the arrow is handed back); every
      other input, newline and tab included, is handed back. */
  function HandleInput(f: Field, key: Input): (r: Step)
    requires Valid(f)
    ensures Valid(r.field)
    ensures key.Chars? && TextInput.Printable(key.s) ==> r == Step(Insert(f, key.s), None)
    ensures key.KeyCode? && (key.code == KeyDelete || key.code == KeyBackspace) ==> r == Step(DeleteQuietly(f), None)
    ensures key == KeyCode(KeyLeft) ==>
      if f.cursor > 0 then r == Step(Field(f.content, f.cursor - 1), None) else r == Step(f, Some(key))
    ensures key == KeyCode(KeyRight) ==>
      if f.cursor < |f.content| then r == Step(Field(f.content, f.cursor + 1), None) else r == Step(f, Some(key))
    ensures key.KeyCode? && !TextInput.Handled(key.code) ==> r == Step(f, None)
    ensures !key.KeyCode? && !(key.Chars? && TextInput.Printable(key.s)) ==> r == Step(f, Some(key))
  {
    match key
    case Chars(s) =>
      if TextInput.Printable(s) then Step(Insert(f, s), None) else Step(f, Some(key))
    case KeyCode(code) =>
      if code == KeyDelete || code == KeyBackspace then Step(DeleteQuietly(f), None)
      else if code == KeyLeft then
        if f.cursor > 0 then Step(Field(f.content, f.cursor - 1), None) else Step(f, Some(key))
      else if code == KeyRight then
        if f.cursor < |f.content| then Step(Field(f.content, f.cursor + 1), None) else Step(f, Some(key))
      else Step(f, None)
    case Other => Step(f, Some(key))
  }

  /** Both text fields leave the same text and cursor after every input;
      they answer alike except that this one swallows a backspace at the
      start of the text and unknown key codes, which the form's field hands
      back. */
  lemma AgreesWithFormField(f: Field, key: Input)
    requires Valid(f)
    ensures HandleInput(f, key).field == TextInput.HandleInput(f, key).field
    ensures HandleInput(f, key).ret != TextInput.HandleInput(f, key).ret <==>
      key.KeyCode? &&
      ((!TextInput.Handled(key.code)) ||
       ((key.code == KeyDelete || key.code == KeyBackspace) && f.cursor == 0))
  {
    if key.Chars? && TextInput.Printable(key.s) {
      var g := Insert(f, key.s);
      assert g.content == g.content[..g.cursor] + g.content[g.cursor..];
    } else if key.KeyCode? && (key.code == KeyDelete || key.code == KeyBackspace) && f.cursor > 0 {
      var g := Backspace(f);
      assert g.content == g.content[..g.cursor] + g.content[g.cursor..];
    }
  }

  /** A run of inputs never breaks the cursor invariant. */
  function Run(f: Field, keys: seq<Input>): (r: Field)
    requires Valid(f)
    ensures Valid(r)
    decreases |keys|
  {
    if |keys| == 0 then f else Run(HandleInput(f, keys[0]).field, keys[1..])
  }

  /** Feeding the same inputs to both text fields leaves the same state. */
  lemma {:induction false} RunsAgree(f: Field, keys: seq<Input>)
    requires Valid(f)
    ensures Run(f, keys) == TextInput.Run(f, keys)
    decreases |keys|
  {
    if |keys| > 0 {
      AgreesWithFormField(f, keys[0]);
      RunsAgree(HandleInput(f, keys[0]).field, keys[1..]);
    }
  }
}

=== FILE: results.dfy ===
/** Failure-carrying datatypes shared by the modules of this model: the Python
    source signals failure by raising, the model by returning `Err`. */
module Results {

  datatype Option<+T> = None | Some(value: T)

  datatype Result<+T, +E> = Ok(value: T) | Err(error: E)
}

=== FILE: schedule.dfy ===
/** The synthetic month-schedule generator (`Month_Dataset` and `Day` in
    helpers.py). A total of monthly hours is split into blocks of 2 to 4
    hours; the blocks are then popped from the end of the list and placed,
    one or two per date, on distinct weekdays of the month that are not
    holidays.

    Every random draw of the source is an oracle input constrained to the
    range the source draws from:
    - `blockDraw(i)` is the `randint(2, 4)` of the i-th `make_timeblocks` iteration;
    - `dayDraws` is the stream of `randint(1, days_of_month)` draws of the
      date search; it is finite, and running out of it is the model's
      `OutOfDayDraws` error where the source would keep drawing for ever;
    - `choice(k)` holds the start hour, the `uniform(0, 1)` coin and the pause
      drawn for the k-th accepted date. */
module Schedule {
  import opened Results
  import opened Calendar

  /** Constants of the `Month_Dataset` constructor. */
  const MinTimeblock := 2
  const MaxTimeblock := 4
  const MinPause := 2
  const MaxPause := 3
  const MinStartTime := 8
  const LatestEnd := 23
  const MaxStartTime := LatestEnd - 2 * MaxTimeblock - MaxPause
  /** At this many monthly hours every date takes two blocks when it can. */
  const TwoBlockThreshold := 20

  /** One row of the timesheet; all times are whole hours. */
  datatype Day = Day(job: string, date: Date, start: int, end: int, pause: int, work: int)

  /** The draws made for one accepted date. */
  datatype DayChoice = DayChoice(start: int, coin: real, pause: int)

  predicate ChoiceInRange(c: DayChoice) {
    MinStartTime <= c.start <= MaxStartTime && 0.0 <= c.coin <= 1.0 && MinPause <= c.pause <= MaxPause
  }

  /** Every draw of the stream is in range. */
  ghost predicate ChoicesInRange(choice: nat -> DayChoice) {
    forall i :: ChoiceInRange(choice(i))
  }

  /** The month being filled and its holiday list. */
  datatype Target = Target(year: int, month: int, holidays: set<Date>)

  predicate TargetOk(t: Target) {
    MinYear <= t.year <= MaxYear && 1 <= t.month <= 12
  }

  /** `OutOfDayDraws`: the finite draw stream ran out. `InvalidTarget`:
      the first date search raised, because the month is outside 1..12
      (an IndexError in `days_of_month` or a ValueError from `date`) or
      the year outside 1..9999 (a ValueError from `date`). */
  datatype GenError = OutOfDayDraws | InvalidTarget

  /** The generated month: the constructor's inputs and the rows it produced. */
  datatype MonthDataset = MonthDataset(year: int, month: int, totalWorkHours: int, days: seq<Day>)

  /** Sum of a list of hours, taken from the end, the way blocks are consumed. */
  function Sum(s: seq<int>): int {
    if |s| == 0 then 0 else Sum(s[..|s| - 1]) + s[|s| - 1]
  }

  function SumWork(days: seq<Day>): int {
    if |days| == 0 then 0 else days[0].work + SumWork(days[1..])
  }

  // ---------------------------------------------------------------------
  // make_timeblocks

  /** Draw blocks until the hours are used up; a draw that would overshoot
      is clamped to the hours left, which ends the loop. */
  method MakeTimeblocks(total: int, blockDraw: nat -> int) returns (blocks: seq<int>)
    requires forall i :: MinTimeblock <= blockDraw(i) <= MaxTimeblock
    ensures total <= 0 ==> blocks == []
    ensures total > 0 ==> |blocks| > 0 && Sum(blocks) == total
    ensures total > 0 ==> 2 * |blocks| <= total + 1 && MaxTimeblock * |blocks| >= total
    ensures forall k :: 0 <= k < |blocks| ==> 0 < blocks[k] <= MaxTimeblock
    ensures forall k :: 0 <= k < |blocks| - 1 ==> blocks[k] == blockDraw(k)
    ensures |blocks| > 0 ==>
      var last := |blocks| - 1;
      var left := total - Sum(blocks[..last]);
      blocks[last] == if left < blockDraw(last) then left else blockDraw(last)
  {
    blocks := [];
    var left := total;
    while left > 0
      invariant total <= 0 ==> blocks == []
      invariant total > 0 ==> 0 <= left && Sum(blocks) + left == total
      invariant total > 0 ==> 2 * |blocks| <= total - left + 1 && MaxTimeblock * |blocks| >= total - left
      invariant left > 0 ==> 2 * |blocks| <= total - left
      invariant forall k :: 0 <= k < |blocks| ==> 0 < blocks[k] <= MaxTimeblock
      invariant left > 0 ==> forall k :: 0 <= k < |blocks| ==> blocks[k] == blockDraw(k)
      invariant left <= 0 && |blocks| > 0 ==> forall k :: 0 <= k < |blocks| - 1 ==> blocks[k] == blockDraw(k)
      invariant left <= 0 && |blocks| > 0 ==>
        var last := |blocks| - 1;
        var before := total - Sum(blocks[..last]);
        blocks[last] == if before < blockDraw(last) then before else blockDraw(last)
      decreases left
    {
      var length := blockDraw(|blocks|);
      if left - length < 0 {
        length := left;
      }
      assert (blocks + [length])[..|blocks|] == blocks;
      blocks := blocks + [length];
      left := left - length;
    }
  }

  // ---------------------------------------------------------------------
  // generate_content

  /** `p_2blocks`: the chance that a date gets a second block and a pause. */
  function TwoBlockChance(total: int): (p: real)
    ensures 0.0 < p <= 1.0
    ensures p == 1.0 <==> total >= TwoBlockThreshold
  {
    if total < TwoBlockThreshold then 0.3 else 1.0
  }

  /** A date `suggest_day_of_month` may return: in the target month, Monday
      to Friday, and not a holiday. */
  predicate Acceptable(t: Target, d: Date) {
    ValidDate(d) && d.year == t.year && d.month == t.month && IsWorkday(d) && d !in t.holidays
  }

  predicate DrawsInMonth(t: Target, draws: seq<int>)
    requires TargetOk(t)
  {
    forall i :: 0 <= i < |draws| ==> 1 <= draws[i] <= DaysOfMonth(t.month, t.year)
  }

  /** A date accepted by the search and the draws not yet consumed. */
  datatype Suggestion = Suggestion(date: Date, rest: seq<int>)

  /** `suggest_day_of_month`: the first draw naming an acceptable date, and
      the draws left after it. A draw outside the month is never
      acceptable; the source only draws days of the month. */
  function SuggestDay(t: Target, draws: seq<int>): (r: Option<Suggestion>)
    ensures r.Some? ==> |r.value.rest| < |draws| && r.value.rest == draws[|draws| - |r.value.rest|..]
    ensures r.Some? ==>
      && r.value.date == Date(t.year, t.month, draws[|draws| - |r.value.rest| - 1])
      && Acceptable(t, r.value.date)
    decreases |draws|
  {
    if |draws| == 0 then None
    else
      var d := Date(t.year, t.month, draws[0]);
      if Acceptable(t, d) then Some(Suggestion(d, draws[1..]))
      else
        var r := SuggestDay(t, draws[1..]);
        if r.Some? then
          assert draws[1..][|draws| - 1 - |r.value.rest|..] == draws[|draws| - |r.value.rest|..];
          r
        else r
  }

  /** The search returns the first acceptable draw, and finds none only when
      no draw is acceptable. */
  lemma {:induction false} SuggestDayFindsFirst(t: Target, draws: seq<int>)
    ensures SuggestDay(t, draws).None? <==> forall i :: 0 <= i < |draws| ==> !Acceptable(t, Date(t.year, t.month, draws[i]))
    ensures var r := SuggestDay(t, draws);
      r.Some? ==> forall i :: 0 <= i < |draws| - |r.value.rest| - 1 ==> !Acceptable(t, Date(t.year, t.month, draws[i]))
    decreases |draws|
  {
    if |draws| > 0 && !Acceptable(t, Date(t.year, t.month, draws[0])) {
      SuggestDayFindsFirst(t, draws[1..]);
      assert forall i :: 1 <= i < |draws| ==> draws[i] == draws[1..][i - 1];
    }
  }

  /** The blocks are consumed from the end of the list: each day takes the
      last block alone with no pause, or the last two blocks with a pause of
      2 to 3 hours; every block goes to exactly one day. */
  predicate TakenFromEnd(blocks: seq<int>, days: seq<Day>)
    decreases |days|
  {
    if |days| == 0 then |blocks| == 0
    else
      var n := |blocks|;
      (n >= 1 && days[0].pause == 0 && days[0].work == blocks[n - 1]
        && TakenFromEnd(blocks[..n - 1], days[1..]))
      || (n >= 2 && MinPause <= days[0].pause <= MaxPause && days[0].work == blocks[n - 1] + blocks[n - 2]
        && TakenFromEnd(blocks[..n - 2], days[1..]))
  }

  predicate DistinctDates(days: seq<Day>) {
    forall i, j :: 0 <= i < j < |days| ==> days[i].date != days[j].date
  }

  /** What the loop body does once a new date is accepted: pop the last
      block, pop a second one with a pause if the coin says so and a block
      is left, and build the row (`add_work`). */
  datatype Placement = Placement(day: Day, remaining: seq<int>)

  function PlaceDay(p2: real, job: string, d: Date, c: DayChoice, blocks: seq<int>): (r: Placement)
    requires |blocks| > 0
    ensures |blocks| - 2 <= |r.remaining| < |blocks|
    ensures r.day.job == job && r.day.date == d && r.day.start == c.start
    ensures r.day.end == r.day.start + r.day.work + r.day.pause
    ensures p2 >= c.coin && |blocks| >= 2 ==>
      && r.day.pause == c.pause
      && r.day.work == blocks[|blocks| - 1] + blocks[|blocks| - 2]
      && r.remaining == blocks[..|blocks| - 2]
    ensures !(p2 >= c.coin && |blocks| >= 2) ==>
      && r.day.pause == 0
      && r.day.work == blocks[|blocks| - 1]
      && r.remaining == blocks[..|blocks| - 1]
  {
    var first := blocks[|blocks| - 1];
    var left := blocks[..|blocks| - 1];
    var paired := p2 >= c.coin && |left| > 0;
    var work := if paired then first + left[|left| - 1] else first;
    var pause := if paired then c.pause else 0;
    var remaining := if paired then left[..|left| - 1] else left;
    assert |blocks| >= 2 ==> left[..|left| - 1] == blocks[..|blocks| - 2];
    Placement(Day(job, d, c.start, c.start + work + pause, pause, work), remaining)
  }

  /** The rows produced by the `while timeblocks_left > 0` loop, given the
      blocks still in the list, the dates already used, and the index `k`
      of the next accepted date's draws. */
  function Generate(t: Target, p2: real, job: string, blocks: seq<int>, dayDraws: seq<int>,
                    choice: nat -> DayChoice, k: nat, used: set<Date>): (r: Result<seq<Day>, GenError>)
    ensures |blocks| == 0 ==> r == Ok([])
    ensures r.Ok? ==> |r.value| <= |blocks|
    ensures r.Err? ==> r.error == OutOfDayDraws
    decreases |blocks|, |dayDraws|
  {
    if |blocks| == 0 then Ok([])
    else match SuggestDay(t, dayDraws)
      case None => Err(OutOfDayDraws)
      case Some(Suggestion(d, rest)) =>
        if d in used then Generate(t, p2, job, blocks, rest, choice, k, used)
        else
          var p := PlaceDay(p2, job, d, choice(k), blocks);
          match Generate(t, p2, job, p.remaining, rest, choice, k + 1, used + {d})
          case Err(e) => Err(e)
          case Ok(days) => Ok([p.day] + days)
  }

  /** A date already used is skipped: the search goes on with the draws
      after it. */
  lemma GenerateSkips(t: Target, p2: real, job: string, blocks: seq<int>, dayDraws: seq<int>,
                      choice: nat -> DayChoice, k: nat, used: set<Date>, s: Suggestion)
    requires |blocks| > 0 && SuggestDay(t, dayDraws) == Some(s) && s.date in used
    ensures |s.rest| < |dayDraws|
    ensures Generate(t, p2, job, blocks, dayDraws, choice, k, used) == Generate(t, p2, job, blocks, s.rest, choice, k, used)
  {
  }

  /** One accepted date: the rows are its row followed by the rows generated
      from the remaining blocks and draws. */
  lemma GenerateAccepts(t: Target, p2: real, job: string, blocks: seq<int>, dayDraws: seq<int>,
                        choice: nat -> DayChoice, k: nat, used: set<Date>, s: Suggestion)
    requires |blocks| > 0 && SuggestDay(t, dayDraws) == Some(s) && s.date !in used
    ensures Acceptable(t, s.date)
    ensures var p := PlaceDay(p2, job, s.date, choice(k), blocks);
      var r := Generate(t, p2, job, p.remaining, s.rest, choice, k + 1, used + {s.date});
      && (Generate(t, p2, job, blocks, dayDraws, choice, k, used).Ok? <==> r.Ok?)
      && (r.Ok? ==> Generate(t, p2, job, blocks, dayDraws, choice, k, used) == Ok([p.day] + r.value))
  {
  }

  /** Every block goes to exactly one row, taken from the end of the list. */
  lemma {:induction false} GenerateTakesFromEnd(t: Target, p2: real, job: string, blocks: seq<int>, dayDraws: seq<int>,
                                                choice: nat -> DayChoice, k: nat, used: set<Date>)
    requires ChoicesInRange(choice)
    ensures var r := Generate(t, p2, job, blocks, dayDraws, choice, k, used);
      r.Ok? ==> TakenFromEnd(blocks, r.value)
    decreases |blocks|, |dayDraws|, 1
  {
    if |blocks| > 0 {
      var s := SuggestDay(t, dayDraws);
      if s.Some? {
        if s.value.date in used {
          TakenSkipped(t, p2, job, blocks, dayDraws, choice, k, used, s.value);
        } else {
          TakenAccepted(t, p2, job, blocks, dayDraws, choice, k, used, s.value);
        }
      }
    }
  }

  /** A skipped date: the rows are those of the later draws. */
  lemma {:induction false} TakenSkipped(t: Target, p2: real, job: string, blocks: seq<int>, dayDraws: seq<int>,
                                        choice: nat -> DayChoice, k: nat, used: set<Date>, s: Suggestion)
    requires ChoicesInRange(choice)
    requires |blocks| > 0 && SuggestDay(t, dayDraws) == Some(s) && s.date in used
    ensures var r := Generate(t, p2, job, blocks, dayDraws, choice, k, used);
      r.Ok? ==> TakenFromEnd(blocks, r.value)
    decreases |blocks|, |dayDraws|, 0
  {
    GenerateSkips(t, p2, job, blocks, dayDraws, choice, k, used, s);
    GenerateTakesFromEnd(t, p2, job, blocks, s.rest, choice, k, used);
  }

  /** An accepted date: its row takes the last one or two blocks. */
  lemma {:induction false} TakenAccepted(t: Target, p2: real, job: string, blocks: seq<int>, dayDraws: seq<int>,
                                         choice: nat -> DayChoice, k: nat, used: set<Date>, s: Suggestion)
    requires ChoicesInRange(choice)
    requires |blocks| > 0 && SuggestDay(t, dayDraws) == Some(s) && s.date !in used
    ensures var r := Generate(t, p2, job, blocks, dayDraws, choice, k, used);
      r.Ok? ==> TakenFromEnd(blocks, r.value)
    decreases |blocks|, |dayDraws|, 0
  {
    var p := PlaceDay(p2, job, s.date, choice(k), blocks);
    var rest := Generate(t, p2, job, p.remaining, s.rest, choice, k + 1, used + {s.date});
    GenerateTakesFromEnd(t, p2, job, p.remaining, s.rest, choice, k + 1, used + {s.date});
    GenerateAccepts(t, p2, job, blocks, dayDraws, choice, k, used, s);
    if rest.Ok? {
      PlacedTakesFromEnd(p2, job, s.date, choice(k), blocks, rest.value);
    }
  }

  /** A placed row followed by rows taking the remaining blocks from the
      end takes all the blocks from the end. */
  lemma PlacedTakesFromEnd(p2: real, job: string, d: Date, c: DayChoice, blocks: seq<int>, days: seq<Day>)
    requires |blocks| > 0 && ChoiceInRange(c)
    requires TakenFromEnd(PlaceDay(p2, job, d, c, blocks).remaining, days)
    ensures TakenFromEnd(blocks, [PlaceDay(p2, job, d, c, blocks).day] + days)
  {
    var p := PlaceDay(p2, job, d, c, blocks);
    assert ([p.day] + days)[1..] == days;
  }

  /** The acceptable dates a stream of day draws names. */
  function DrawnDates(t: Target, draws: seq<int>): set<Date>
    decreases |draws|
  {
    if |draws| == 0 then {}
    else
      var d := Date(t.year, t.month, draws[0]);
      (if Acceptable(t, d) then {d} else {}) + DrawnDates(t, draws[1..])
  }

  /** A month outside the calendar has no acceptable date. */
  lemma {:induction false} NoDatesOutsideCalendar(t: Target, draws: seq<int>)
    requires !TargetOk(t)
    ensures DrawnDates(t, draws) == {}
    decreases |draws|
  {
    if |draws| > 0 {
      NoDatesOutsideCalendar(t, draws[1..]);
    }
  }

  /** The search fails only on draws naming no acceptable date; otherwise
      its date and the dates the remaining draws name are all the dates
      the draws name. */
  lemma {:induction false} SuggestDayDrawn(t: Target, draws: seq<int>)
    ensures SuggestDay(t, draws).None? <==> DrawnDates(t, draws) == {}
    ensures var r := SuggestDay(t, draws);
      r.Some? ==> DrawnDates(t, draws) == {r.value.date} + DrawnDates(t, r.value.rest)
    decreases |draws|
  {
    if |draws| > 0 && !Acceptable(t, Date(t.year, t.month, draws[0])) {
      SuggestDayDrawn(t, draws[1..]);
    }
  }

  /** A used date leaves the new dates the draws name unchanged; a new one
      removes itself from them. */
  lemma NewDatesAfterSuggestion(t: Target, draws: seq<int>, used: set<Date>, s: Suggestion)
    requires SuggestDay(t, draws) == Some(s)
    ensures s.date in used ==> DrawnDates(t, s.rest) - used == DrawnDates(t, draws) - used
    ensures s.date !in used ==> |DrawnDates(t, s.rest) - (used + {s.date})| == |DrawnDates(t, draws) - used| - 1
  {
    SuggestDayDrawn(t, draws);
    NewAfterTaking(DrawnDates(t, draws), DrawnDates(t, s.rest), used, s.date);
  }

  lemma NewAfterTaking<T>(all: set<T>, rest: set<T>, used: set<T>, x: T)
    requires all == {x} + rest
    ensures x in used ==> rest - used == all - used
    ensures x !in used ==> |rest - (used + {x})| == |all - used| - 1
  {
    if x !in used {
      assert all - used == (rest - (used + {x})) + {x};
    }
  }

  /** The loop ends once the draws name as many new acceptable dates as
      there are blocks left: every new date takes at least one block, and
      a date already used costs no block. */
  lemma {:induction false} GenerateSucceeds(t: Target, p2: real, job: string, blocks: seq<int>, dayDraws: seq<int>,
                                            choice: nat -> DayChoice, k: nat, used: set<Date>)
    requires |DrawnDates(t, dayDraws) - used| >= |blocks|
    ensures Generate(t, p2, job, blocks, dayDraws, choice, k, used).Ok?
    decreases |blocks|, |dayDraws|
  {
    if |blocks| > 0 {
      SuggestDayDrawn(t, dayDraws);
      var s := SuggestDay(t, dayDraws);
      var d, rest := s.value.date, s.value.rest;
      NewDatesAfterSuggestion(t, dayDraws, used, s.value);
      if d in used {
        GenerateSkips(t, p2, job, blocks, dayDraws, choice, k, used, s.value);
        GenerateSucceeds(t, p2, job, blocks, rest, choice, k, used);
      } else {
        var p := PlaceDay(p2, job, d, choice(k), blocks);
        GenerateSucceeds(t, p2, job, p.remaining, rest, choice, k + 1, used + {d});
        GenerateAccepts(t, p2, job, blocks, dayDraws, choice, k, used, s.value);
      }
    }
  }

  /** Rows whose dates are all acceptable, outside `used`, and pairwise
      distinct. */
  predicate FreshDates(t: Target, used: set<Date>, days: seq<Day>) {
    && DistinctDates(days)
    && forall i :: 0 <= i < |days| ==> Acceptable(t, days[i].date) && days[i].date !in used
  }

  lemma FreshDatesCons(t: Target, used: set<Date>, day: Day, days: seq<Day>)
    requires Acceptable(t, day.date) && day.date !in used
    requires FreshDates(t, used + {day.date}, days)
    ensures FreshDates(t, used, [day] + days)
  {
    var all := [day] + days;
    assert forall i :: 1 <= i < |all| ==> all[i] == days[i - 1];
  }

  lemma DatesAccepted(t: Target, p2: real, job: string, blocks: seq<int>, dayDraws: seq<int>,
                      choice: nat -> DayChoice, k: nat, used: set<Date>, s: Suggestion)
    requires |blocks| > 0 && SuggestDay(t, dayDraws) == Some(s) && s.date !in used
    requires var p := PlaceDay(p2, job, s.date, choice(k), blocks);
      var r := Generate(t, p2, job, p.remaining, s.rest, choice, k + 1, used + {s.date});
      r.Ok? ==> FreshDates(t, used + {s.date}, r.value)
    ensures var r := Generate(t, p2, job, blocks, dayDraws, choice, k, used);
      r.Ok? ==> FreshDates(t, used, r.value)
  {
    var p := PlaceDay(p2, job, s.date, choice(k), blocks);
    GenerateAccepts(t, p2, job, blocks, dayDraws, choice, k, used, s);
    var r := Generate(t, p2, job, p.remaining, s.rest, choice, k + 1, used + {s.date});
    if r.Ok? {
      FreshDatesCons(t, used, p.day, r.value);
    }
  }

  /** Every generated date is acceptable and new, and no date repeats. */
  lemma {:induction false} GenerateDates(t: Target, p2: real, job: string, blocks: seq<int>, dayDraws: seq<int>,
                                         choice: nat -> DayChoice, k: nat, used: set<Date>)
    ensures var r := Generate(t, p2, job, blocks, dayDraws, choice, k, used);
      r.Ok? ==> FreshDates(t, used, r.value)
    decreases |blocks|, |dayDraws|
  {
    if |blocks| > 0 {
      var s := SuggestDay(t, dayDraws);
      if s.Some? {
        var d, rest := s.value.date, s.value.rest;
        if d in used {
          GenerateSkips(t, p2, job, blocks, dayDraws, choice, k, used, s.value);
          GenerateDates(t, p2, job, blocks, rest, choice, k, used);
        } else {
          var p := PlaceDay(p2, job, d, choice(k), blocks);
          GenerateAccepts(t, p2, job, blocks, dayDraws, choice, k, used, s.value);
          GenerateDates(t, p2, job, p.remaining, rest, choice, k + 1, used + {d});
          DatesAccepted(t, p2, job, blocks, dayDraws, choice, k, used, s.value);
        }
      }
    }
  }

  /** A row follows its draws: the job label, the drawn start hour, an end
      after its work and pause, no pause when the coin exceeds `p2`, and the
      drawn pause when the coin does not and a later row exists. */
  predicate RowFollows(p2: real, job: string, c: DayChoice, d: Day, isLast: bool) {
    && d.job == job
    && d.start == c.start
    && d.end == d.start + d.work + d.pause
    && (c.coin > p2 ==> d.pause == 0)
    && (c.coin <= p2 && !isLast ==> d.pause == c.pause)
    && (d.pause != 0 ==> d.pause == c.pause)
  }

  lemma FollowsAccepted(t: Target, p2: real, job: string, blocks: seq<int>, dayDraws: seq<int>,
                        choice: nat -> DayChoice, k: nat, used: set<Date>, s: Suggestion)
    requires |blocks| > 0 && SuggestDay(t, dayDraws) == Some(s) && s.date !in used
    requires var p := PlaceDay(p2, job, s.date, choice(k), blocks);
      var r := Generate(t, p2, job, p.remaining, s.rest, choice, k + 1, used + {s.date});
      r.Ok? ==> RowsFollow(p2, job, choice, k + 1, r.value)
    ensures var r := Generate(t, p2, job, blocks, dayDraws, choice, k, used);
      r.Ok? ==> RowsFollow(p2, job, choice, k, r.value)
  {
    var p := PlaceDay(p2, job, s.date, choice(k), blocks);
    GenerateAccepts(t, p2, job, blocks, dayDraws, choice, k, used, s);
    var r := Generate(t, p2, job, p.remaining, s.rest, choice, k + 1, used + {s.date});
    if r.Ok? {
      // a later row exists only if a block was left after the first one
      assert |r.value| > 0 ==> |p.remaining| > 0;
      RowsFollowCons(p2, job, choice, k, p.day, r.value);
    }
  }

  lemma {:induction false} GenerateFollowsChoices(t: Target, p2: real, job: string, blocks: seq<int>, dayDraws: seq<int>,
                                                  choice: nat -> DayChoice, k: nat, used: set<Date>)
    ensures var r := Generate(t, p2, job, blocks, dayDraws, choice, k, used);
      r.Ok? ==> RowsFollow(p2, job, choice, k, r.value)
    decreases |blocks|, |dayDraws|
  {
    if |blocks| > 0 {
      var s := SuggestDay(t, dayDraws);
      if s.Some? {
        var d, rest := s.value.date, s.value.rest;
        if d in used {
          GenerateSkips(t, p2, job, blocks, dayDraws, choice, k, used, s.value);
          GenerateFollowsChoices(t, p2, job, blocks, rest, choice, k, used);
        } else {
          var p := PlaceDay(p2, job, d, choice(k), blocks);
          GenerateAccepts(t, p2, job, blocks, dayDraws, choice, k, used, s.value);
          GenerateFollowsChoices(t, p2, job, p.remaining, rest, choice, k + 1, used + {d});
          FollowsAccepted(t, p2, job, blocks, dayDraws, choice, k, used, s.value);
        }
      }
    }
  }

  /** Row i of `rows` follows the draws `choice(k + i)`. */
  predicate RowsFollow(p2: real, job: string, choice: nat -> DayChoice, k: nat, rows: seq<Day>) {
    forall i :: 0 <= i < |rows| ==> RowFollows(p2, job, choice(k + i), rows[i], i == |rows| - 1)
  }

  lemma RowsFollowCons(p2: real, job: string, choice: nat -> DayChoice, k: nat, day: Day, rows: seq<Day>)
    requires RowFollows(p2, job, choice(k), day, |rows| == 0)
    requires RowsFollow(p2, job, choice, k + 1, rows)
    ensures RowsFollow(p2, job, choice, k, [day] + rows)
  {
    var days := [day] + rows;
    forall i | 1 <= i < |days|
      ensures RowFollows(p2, job, choice(k + i), days[i], i == |days| - 1)
    {
      var j := i - 1;
      assert RowFollows(p2, job, choice(k + 1 + j), rows[j], j == |rows| - 1);
      assert days[i] == rows[j];
      assert k + i == k + 1 + j;
    }
  }

  // ---------------------------------------------------------------------
  // Consequences of taking blocks from the end

  lemma {:induction false} TakenFromEndConservesHours(blocks: seq<int>, days: seq<Day>)
    requires TakenFromEnd(blocks, days)
    ensures SumWork(days) == Sum(blocks)
    decreases |days|
  {
    if |days| > 0 {
      var n := |blocks|;
      if n >= 1 && days[0].pause == 0 && days[0].work == blocks[n - 1] && TakenFromEnd(blocks[..n - 1], days[1..]) {
        TakenFromEndConservesHours(blocks[..n - 1], days[1..]);
      } else {
        TakenFromEndConservesHours(blocks[..n - 2], days[1..]);
        assert blocks[..n - 1][..n - 2] == blocks[..n - 2];
      }
    }
  }

  /** Each day holds one or two blocks, so there are between half as many
      days as blocks and as many days as blocks. */
  lemma {:induction false} TakenFromEndCounts(blocks: seq<int>, days: seq<Day>)
    requires TakenFromEnd(blocks, days)
    ensures |days| <= |blocks| <= 2 * |days|
    decreases |days|
  {
    if |days| > 0 {
      var n := |blocks|;
      if n >= 1 && days[0].pause == 0 && days[0].work == blocks[n - 1] && TakenFromEnd(blocks[..n - 1], days[1..]) {
        TakenFromEndCounts(blocks[..n - 1], days[1..]);
      } else {
        TakenFromEndCounts(blocks[..n - 2], days[1..]);
      }
    }
  }

  /** With blocks of at most 4 hours a day works at most 8 hours, and a day
      with a pause works at least two blocks. */
  lemma {:induction false} TakenFromEndDayBounds(blocks: seq<int>, days: seq<Day>)
    requires TakenFromEnd(blocks, days)
    requires forall k :: 0 <= k < |blocks| ==> 0 < blocks[k] <= MaxTimeblock
    ensures forall i :: 0 <= i < |days| ==>
      && 0 < days[i].work <= 2 * MaxTimeblock
      && (days[i].pause == 0 || MinPause <= days[i].pause <= MaxPause)
      && (days[i].pause == 0 ==> days[i].work <= MaxTimeblock)
    decreases |days|
  {
    if |days| > 0 {
      var n := |blocks|;
      var rest := if n >= 1 && days[0].pause == 0 && days[0].work == blocks[n - 1] && TakenFromEnd(blocks[..n - 1], days[1..])
        then blocks[..n - 1] else blocks[..n - 2];
      TakenFromEndDayBounds(rest, days[1..]);
      forall i | 0 <= i < |days|
        ensures 0 < days[i].work <= 2 * MaxTimeblock
        ensures days[i].pause == 0 || MinPause <= days[i].pause <= MaxPause
        ensures days[i].pause == 0 ==> days[i].work <= MaxTimeblock
      {
        if i > 0 {
          assert days[i] == days[1..][i - 1];
        }
      }
    }
  }

  // ---------------------------------------------------------------------
  // Feasibility: the month can hold only so many dates

  /** The dates the generator may use in the target month. */
  function AvailableDates(t: Target): (s: set<Date>)
    requires TargetOk(t)
    ensures forall d :: d in s <==> Acceptable(t, d)
  {
    var s := set day | 1 <= day <= DaysOfMonth(t.month, t.year) && Acceptable(t, Date(t.year, t.month, day))
      :: Date(t.year, t.month, day);
    assert forall d :: Acceptable(t, d) ==> d == Date(t.year, t.month, d.day);
    s
  }

  lemma {:induction false} DistinctDatesFit(days: seq<Day>, s: set<Date>)
    requires DistinctDates(days)
    requires forall i :: 0 <= i < |days| ==> days[i].date in s
    ensures |days| <= |s|
    decreases |days|
  {
    if |days| > 0 {
      var rest := days[1..];
      assert forall i :: 0 <= i < |rest| ==> rest[i] == days[i + 1];
      DistinctDatesFit(rest, s - {days[0].date});
    }
  }

  // ---------------------------------------------------------------------
  // The Month_Dataset constructor

  predicate ClockHour(h: int) {
    0 <= h <= LatestEnd
  }

  /** What every generated row satisfies. */
  predicate WellFormedDay(t: Target, job: string, d: Day) {
    && Acceptable(t, d.date)
    && d.job == job
    && MinStartTime <= d.start <= MaxStartTime
    && d.end == d.start + d.work + d.pause
    && 0 < d.work <= 2 * MaxTimeblock
    && (d.pause == 0 || MinPause <= d.pause <= MaxPause)
    && ClockHour(d.start) && ClockHour(d.end) && ClockHour(d.pause) && ClockHour(d.work)
  }

  lemma RowsWellFormed(t: Target, p2: real, job: string, blocks: seq<int>, days: seq<Day>, choice: nat -> DayChoice)
    requires TakenFromEnd(blocks, days)
    requires forall k :: 0 <= k < |blocks| ==> 0 < blocks[k] <= MaxTimeblock
    requires ChoicesInRange(choice)
    requires forall i :: 0 <= i < |days| ==> Acceptable(t, days[i].date)
    requires RowsFollow(p2, job, choice, 0, days)
    ensures forall i :: 0 <= i < |days| ==> WellFormedDay(t, job, days[i])
  {
    TakenFromEndDayBounds(blocks, days);
    forall i | 0 <= i < |days|
      ensures WellFormedDay(t, job, days[i])
    {
      assert RowFollows(p2, job, choice(0 + i), days[i], i == |days| - 1);
      assert ChoiceInRange(choice(i));
    }
  }

  /** With a certain coin every row but the last takes two blocks. */
  lemma RowsPairedAboveThreshold(p2: real, job: string, days: seq<Day>, choice: nat -> DayChoice)
    requires p2 == 1.0
    requires ChoicesInRange(choice)
    requires RowsFollow(p2, job, choice, 0, days)
    ensures forall i :: 0 <= i < |days| - 1 ==> days[i].pause > 0
  {
    forall i | 0 <= i < |days| - 1
      ensures days[i].pause > 0
    {
      assert RowFollows(p2, job, choice(0 + i), days[i], i == |days| - 1);
      assert ChoiceInRange(choice(i));
    }
  }

  /** What the rows generated from `make_timeblocks`' blocks satisfy. */
  lemma GeneratedRows(t: Target, total: int, job: string, blocks: seq<int>, dayDraws: seq<int>,
                      choice: nat -> DayChoice, days: seq<Day>)
    requires total <= 0 ==> blocks == []
    requires total > 0 ==> |blocks| > 0 && Sum(blocks) == total
    requires forall k :: 0 <= k < |blocks| ==> 0 < blocks[k] <= MaxTimeblock
    requires ChoicesInRange(choice)
    requires Generate(t, TwoBlockChance(total), job, blocks, dayDraws, choice, 0, {}) == Ok(days)
    ensures SumWork(days) == (if total > 0 then total else 0)
    ensures total > 0 <==> |days| > 0
    ensures total <= 2 * MaxTimeblock * |days|
    ensures DistinctDates(days)
    ensures forall i :: 0 <= i < |days| ==> WellFormedDay(t, job, days[i])
    ensures total >= TwoBlockThreshold ==> forall i :: 0 <= i < |days| - 1 ==> days[i].pause > 0
    ensures TargetOk(t) ==> |days| <= |AvailableDates(t)|
  {
    var p2 := TwoBlockChance(total);
    GenerateTakesFromEnd(t, p2, job, blocks, dayDraws, choice, 0, {});
    GenerateDates(t, p2, job, blocks, dayDraws, choice, 0, {});
    GenerateFollowsChoices(t, p2, job, blocks, dayDraws, choice, 0, {});
    TakenFromEndConservesHours(blocks, days);
    TakenFromEndCounts(blocks, days);
    BlocksBound(blocks);
    if TargetOk(t) {
      DistinctDatesFit(days, AvailableDates(t));
    }
    RowsWellFormed(t, p2, job, blocks, days, choice);
    if total >= TwoBlockThreshold {
      RowsPairedAboveThreshold(p2, job, days, choice);
    }
  }

  lemma {:induction false} BlocksBound(blocks: seq<int>)
    requires forall k :: 0 <= k < |blocks| ==> 0 < blocks[k] <= MaxTimeblock
    ensures Sum(blocks) <= MaxTimeblock * |blocks|
    decreases |blocks|
  {
    if |blocks| > 0 {
      BlocksBound(blocks[..|blocks| - 1]);
    }
  }

  /** `Month_Dataset(year, month, total_work_hours, job, feiertage)`. */
  method NewMonthDataset(year: int, month: int, total: int, job: string, holidays: set<Date>,
                         blockDraw: nat -> int, dayDraws: seq<int>, choice: nat -> DayChoice)
    returns (r: Result<MonthDataset, GenError>)
    requires forall i :: MinTimeblock <= blockDraw(i) <= MaxTimeblock
    requires TargetOk(Target(year, month, holidays)) ==> DrawsInMonth(Target(year, month, holidays), dayDraws)
    requires ChoicesInRange(choice)
    ensures r.Err? ==> total > 0
    ensures r.Err? ==> (r.error == InvalidTarget <==> !TargetOk(Target(year, month, holidays)))
    ensures r.Ok? ==> r.value.year == year && r.value.month == month && r.value.totalWorkHours == total
    ensures r.Ok? ==> SumWork(r.value.days) == (if total > 0 then total else 0)
    ensures r.Ok? ==> (total > 0 <==> |r.value.days| > 0)
    ensures r.Ok? ==> DistinctDates(r.value.days)
    ensures r.Ok? ==> forall i :: 0 <= i < |r.value.days| ==> WellFormedDay(Target(year, month, holidays), job, r.value.days[i])
    ensures r.Ok? && total >= TwoBlockThreshold ==> forall i :: 0 <= i < |r.value.days| - 1 ==> r.value.days[i].pause > 0
    ensures TargetOk(Target(year, month, holidays)) && total > 2 * MaxTimeblock * |AvailableDates(Target(year, month, holidays))| ==> r.Err?
    ensures 2 * |DrawnDates(Target(year, month, holidays), dayDraws)| > total ==> r.Ok?
  {
    var t := Target(year, month, holidays);
    var blocks := MakeTimeblocks(total, blockDraw);
    var p2 := TwoBlockChance(total);
    if !TargetOk(t) {
      NoDatesOutsideCalendar(t, dayDraws);
      if total > 0 {
        return Err(InvalidTarget);
      }
    }
    if 2 * |DrawnDates(t, dayDraws)| > total {
      assert DrawnDates(t, dayDraws) - {} == DrawnDates(t, dayDraws);
      GenerateSucceeds(t, p2, job, blocks, dayDraws, choice, 0, {});
    }
    var g := Generate(t, p2, job, blocks, dayDraws, choice, 0, {});
    if g.Err? {
      return Err(g.error);
    }
    var days := g.value;
    GeneratedRows(t, total, job, blocks, dayDraws, choice, days);
    r := Ok(MonthDataset(year, month, total, days));
  }

  // ---------------------------------------------------------------------
  // Sorting the rows by date (`sorted(days)` with `Day.__lt__`)

  /** `Day.__lt__`: rows compare by date only. */
  predicate DayBefore(a: Day, b: Day) {
    Before(a.date, b.date)
  }

  /** What `sorted` promises with only `<` available: no later row is
      smaller than an earlier one. */
  predicate SortedByDate(days: seq<Day>) {
    forall i, j :: 0 <= i < j < |days| ==> !DayBefore(days[j], days[i])
  }

  /** A row not after the head of a sorted list can go in front of it. */
  lemma SortedCons(d: Day, days: seq<Day>)
    requires SortedByDate(days)
    requires |days| > 0 ==> !DayBefore(days[0], d)
    ensures SortedByDate([d] + days)
  {
    var r := [d] + days;
    forall i, j | 0 <= i < j < |r|
      ensures !DayBefore(r[j], r[i])
    {
      if i == 0 && j > 1 {
        assert r[j] == days[j - 1] && !DayBefore(days[j - 1], days[0]);
      }
    }
  }

  function InsertByDate(d: Day, days: seq<Day>): (r: seq<Day>)
    requires SortedByDate(days)
    ensures multiset(r) == multiset(days) + multiset{d}
    ensures SortedByDate(r)
    ensures |r| > 0 && (r[0] == d || (|days| > 0 && r[0] == days[0]))
    decreases |days|
  {
    if |days| == 0 then [d]
    else if DayBefore(d, days[0]) then
      SortedCons(d, days);
      [d] + days
    else
      var rest := InsertByDate(d, days[1..]);
      assert days == [days[0]] + days[1..];
      SortedCons(days[0], rest);
      [days[0]] + rest
  }

  function SortByDate(days: seq<Day>): (r: seq<Day>)
    ensures multiset(r) == multiset(days)
    ensures SortedByDate(r)
    decreases |days|
  {
    if |days| == 0 then []
    else
      assert days == [days[0]] + days[1..];
      InsertByDate(days[0], SortByDate(days[1..]))
  }

  /** Generated rows have distinct dates, so after sorting the dates strictly increase. */
  lemma SortedDistinctIncreasing(days: seq<Day>)
    requires SortedByDate(days) && DistinctDates(days)
    ensures forall i, j :: 0 <= i < j < |days| ==> DayBefore(days[i], days[j])
  {
    forall i, j | 0 <= i < j < |days|
      ensures DayBefore(days[i], days[j])
    {
      BeforeIsStrictTotalOrder(days[i].date, days[j].date, days[j].date);
    }
  }

  /** Inserting a row whose date is new keeps the dates distinct. */
  lemma {:induction false} InsertKeepsDistinct(d: Day, days: seq<Day>)
    requires SortedByDate(days) && DistinctDates(days)
    requires forall i :: 0 <= i < |days| ==> days[i].date != d.date
    ensures DistinctDates(InsertByDate(d, days))
    decreases |days|
  {
    if |days| > 0 && !DayBefore(d, days[0]) {
      var tail := days[1..];
      assert forall i :: 0 <= i < |tail| ==> tail[i] == days[i + 1];
      InsertKeepsDistinct(d, tail);
      var rest := InsertByDate(d, tail);
      forall i | 0 <= i < |rest|
        ensures rest[i].date != days[0].date
      {
        assert rest[i] in multiset(rest);
      }
      DistinctCons(days[0], rest);
    }
  }

  /** A row whose date none of the distinct rows has can go in front. */
  lemma DistinctCons(x: Day, rest: seq<Day>)
    requires DistinctDates(rest)
    requires forall i :: 0 <= i < |rest| ==> rest[i].date != x.date
    ensures DistinctDates([x] + rest)
  {
    var r := [x] + rest;
    assert forall i :: 1 <= i < |r| ==> r[i] == rest[i - 1];
  }

  /** Sorting rows with distinct dates keeps them distinct. */
  lemma {:induction false} SortKeepsDistinct(days: seq<Day>)
    requires DistinctDates(days)
    ensures DistinctDates(SortByDate(days))
    decreases |days|
  {
    if |days| > 0 {
      var tail := days[1..];
      assert forall i :: 0 <= i < |tail| ==> tail[i] == days[i + 1];
      SortKeepsDistinct(tail);
      var sorted := SortByDate(tail);
      forall i | 0 <= i < |sorted|
        ensures sorted[i].date != days[0].date
      {
        assert sorted[i] in multiset(sorted);
      }
      InsertKeepsDistinct(days[0], sorted);
    }
  }

  /** The generated rows, sorted for printing, are the same rows in
      strictly increasing date order. */
  lemma SortByDateIncreasing(days: seq<Day>)
    requires DistinctDates(days)
    ensures multiset(SortByDate(days)) == multiset(days)
    ensures var r := SortByDate(days);
      forall i, j :: 0 <= i < j < |r| ==> DayBefore(r[i], r[j])
  {
    SortKeepsDistinct(days);
    SortedDistinctIncreasing(SortByDate(days));
  }
}

=== FILE: text_input.dfy ===
/** The widgets of the form screen: the scrolling text field `textfield`,
    the length-limited `textfield_fixed` and the inert `button`. Every
    edit returns the new field together with what the Python method
    returns: `None` when the keystroke was handled, otherwise the key the
    surrounding form should act on (move to the next or previous widget). */
module TextInput {
  import opened Results
  import opened TextBuffer

  /** `textfield.add`: inserts at the cursor and reports the keystroke as
      handled. */
  function Add(f: Field, s: string): (r: Step)
    requires Valid(f)
    ensures Valid(r.field) && r.ret == None
    ensures r.field.content == f.content[..f.cursor] + s + f.content[f.cursor..]
    ensures r.field.cursor == f.cursor + |s|
  {
    var g := Insert(f, s);
    assert g.content == g.content[..g.cursor] + g.content[g.cursor..];
    Step(g, None)
  }

  /** `delete`: removes the character before the cursor; at the start of
      the text nothing changes and KEY_BACKSPACE is handed back. */
  function Delete(f: Field): (r: Step)
    requires Valid(f)
    ensures Valid(r.field)
    ensures f.cursor == 0 <==> r.ret == Some(KeyCode(KeyBackspace))
    ensures f.cursor == 0 ==> r.field == f
    ensures f.cursor > 0 ==> r.ret == None && r.field.cursor == f.cursor - 1
    ensures f.cursor > 0 ==> r.field.content == f.content[..f.cursor - 1] + f.content[f.cursor..]
  {
    if f.cursor > 0 then
      var g := Backspace(f);
      assert g.content == g.content[..g.cursor] + g.content[g.cursor..];
      Step(g, None)
    else Step(f, Some(KeyCode(KeyBackspace)))
  }

  /** `move_cursor_right`: one step right, or KEY_RIGHT at the end. */
  function MoveRight(f: Field): (r: Step)
    requires Valid(f)
    ensures Valid(r.field) && r.field.content == f.content
    ensures f.cursor < |f.content| ==> r == Step(Field(f.content, f.cursor + 1), None)
    ensures f.cursor == |f.content| ==> r == Step(f, Some(KeyCode(KeyRight)))
  {
    if f.cursor < |f.content| then Step(Field(f.content, f.cursor + 1), None)
    else Step(f, Some(KeyCode(KeyRight)))
  }

  /** `move_cursor_left`: one step left, or KEY_LEFT at the start. */
  function MoveLeft(f: Field): (r: Step)
    requires Valid(f)
    ensures Valid(r.field) && r.field.content == f.content
    ensures f.cursor > 0 ==> r == Step(Field(f.content, f.cursor - 1), None)
    ensures f.cursor == 0 ==> r == Step(f, Some(KeyCode(KeyLeft)))
  {
    if f.cursor > 0 then Step(Field(f.content, f.cursor - 1), None)
    else Step(f, Some(KeyCode(KeyLeft)))
  }

  /** A string the fields insert: anything but a newline or a tab. */
  predicate Printable(s: string) {
    s != "\n" && s != "\t"
  }

  /** The key codes `input` handles, each with its edit. */
  predicate Handled(code: int) {
    code == KeyDelete || code == KeyBackspace || code == KeyLeft || code == KeyRight
  }

  /** `textfield.input`: printable strings are inserted, the delete and
      backspace keys delete, the arrows move; every other input, newline
      and tab included, is handed back with the field unchanged. */
  function HandleInput(f: Field, key: Input): (r: Step)
    requires Valid(f)
    ensures Valid(r.field)
    ensures key.Chars? && Printable(key.s) ==> r == Add(f, key.s)
    ensures key.KeyCode? && (key.code == KeyDelete || key.code == KeyBackspace) ==> r == Delete(f)
    ensures key == KeyCode(KeyLeft) ==> r == MoveLeft(f)
    ensures key == KeyCode(KeyRight) ==> r == MoveRight(f)
    ensures !(key.Chars? && Printable(key.s)) && !(key.KeyCode? && Handled(key.code)) ==> r == Step(f, Some(key))
  {
    match key
    case Chars(s) => if Printable(s) then Add(f, s) else Step(f, Some(key))
    case KeyCode(code) =>
      if code == KeyDelete || code == KeyBackspace then Delete(f)
      else if code == KeyLeft then MoveLeft(f)
      else if code == KeyRight then MoveRight(f)
      else Step(f, Some(key))
    case Other => Step(f, Some(key))
  }

  /** A keystroke that is handed back leaves the field as it was, and only
      the edge keys (or the input itself) come back. */
  lemma ReturnedKeysLeaveFieldAlone(f: Field, key: Input)
    requires Valid(f)
    ensures HandleInput(f, key).ret.Some? ==> HandleInput(f, key).field == f
    ensures HandleInput(f, key).ret.Some? ==>
      HandleInput(f, key).ret.value in {key, KeyCode(KeyBackspace), KeyCode(KeyLeft), KeyCode(KeyRight)}
  {
  }

  /** Stepping right and back left is the identity, and so is the reverse
      wherever the first move succeeds. */
  lemma MovesCancel(f: Field)
    requires Valid(f)
    ensures f.cursor < |f.content| ==> MoveLeft(MoveRight(f).field).field == f
    ensures f.cursor > 0 ==> MoveRight(MoveLeft(f).field).field == f
  {
  }

  /** Typing a printable character and then backspace restores the field. */
  lemma TypeThenBackspace(f: Field, ch: char)
    requires Valid(f)
    requires Printable([ch])
    ensures HandleInput(HandleInput(f, Chars([ch])).field, KeyCode(KeyBackspace)) == Step(f, None)
  {
    BackspaceUndoesInsert(f, ch);
  }

  /** A run of edits: the field after feeding `ins` in order. */
  function Run(f: Field, ins: seq<Input>): (r: Field)
    requires Valid(f)
    ensures Valid(r)
    decreases |ins|
  {
    if |ins| == 0 then f else Run(HandleInput(f, ins[0]).field, ins[1..])
  }

  /** Arrow keys never change the text, however many are pressed. */
  lemma {:induction false} ArrowsKeepContent(f: Field, ins: seq<Input>)
    requires Valid(f)
    requires forall i :: 0 <= i < |ins| ==> ins[i] in {KeyCode(KeyLeft), KeyCode(KeyRight)}
    ensures Run(f, ins).content == f.content
    decreases |ins|
  {
    if |ins| > 0 {
      assert ins[0] in {KeyCode(KeyLeft), KeyCode(KeyRight)};
      ArrowsKeepContent(HandleInput(f, ins[0]).field, ins[1..]);
    }
  }

  // ---------------------------------------------------------------------
  // textfield_fixed

  /** `textfield_fixed.add`: inserts like `add`, then hands back KEY_RIGHT
      once the text fills the window, so the form moves on. */
  function FixedAdd(f: Field, s: string, width: int): (r: Step)
    requires Valid(f)
    ensures r.field == Add(f, s).field
    ensures r.ret == Some(KeyCode(KeyRight)) <==> |f.content| + |s| >= width
    ensures r.ret.None? <==> |f.content| + |s| < width
  {
    var g := Add(f, s).field;
    if |g.content| >= width then Step(g, Some(KeyCode(KeyRight))) else Step(g, None)
  }

  /** `textfield_fixed.move_cursor_right`: the cursor only advances while it
      stands before the last character. */
  function FixedMoveRight(f: Field): (r: Step)
    requires Valid(f)
    ensures Valid(r.field) && r.field.content == f.content
    ensures f.cursor < |f.content| - 1 ==> r == Step(Field(f.content, f.cursor + 1), None)
    ensures f.cursor >= |f.content| - 1 ==> r == Step(f, Some(KeyCode(KeyRight)))
  {
    if f.cursor < |f.content| - 1 then Step(Field(f.content, f.cursor + 1), None)
    else Step(f, Some(KeyCode(KeyRight)))
  }

  /** `textfield_fixed.input`: the inherited dispatch, reaching the fixed
      field's own `add` and `move_cursor_right`. */
  function FixedInput(f: Field, key: Input, width: int): (r: Step)
    requires Valid(f)
    ensures Valid(r.field)
    ensures key.Chars? && Printable(key.s) ==> r == FixedAdd(f, key.s, width)
    ensures key == KeyCode(KeyRight) ==> r == FixedMoveRight(f)
    ensures !(key.Chars? && Printable(key.s)) && key != KeyCode(KeyRight) ==> r == HandleInput(f, key)
  {
    match key
    case Chars(s) => if Printable(s) then FixedAdd(f, s, width) else HandleInput(f, key)
    case KeyCode(code) => if code == KeyRight then FixedMoveRight(f) else HandleInput(f, key)
    case Other => HandleInput(f, key)
  }

  /** The cursor column `textfield_fixed.draw` sets: the fixed field shows
      its whole text and moves the cursor only while it is inside the
      window. */
  function FixedCursorColumn(f: Field, width: int): (c: Option<int>)
    requires Valid(f)
    ensures c.Some? <==> f.cursor < width
    ensures c.Some? ==> 0 <= c.value < width && c.value == f.cursor
  {
    if f.cursor < width then Some(f.cursor) else None
  }

  // ---------------------------------------------------------------------
  // The form's widgets

  /** The three widget kinds of the form and their state. */
  datatype Widget = Scrolling(field: Field) | Fixed(field: Field, width: int) | Button(text: string)

  predicate WidgetValid(w: Widget) {
    !w.Button? ==> Valid(w.field)
  }

  /** `input` on whatever widget has the focus. */
  function WidgetInput(w: Widget, key: Input): (r: (Widget, Option<Input>))
    requires WidgetValid(w)
    ensures WidgetValid(r.0)
    ensures w.Button? ==> r == (w, Some(key))
    ensures w.Scrolling? ==> r == (Scrolling(HandleInput(w.field, key).field), HandleInput(w.field, key).ret)
    ensures w.Fixed? ==>
      r == (Fixed(FixedInput(w.field, key, w.width).field, w.width), FixedInput(w.field, key, w.width).ret)
  {
    match w
    case Scrolling(f) =>
      var s := HandleInput(f, key);
      (Scrolling(s.field), s.ret)
    case Fixed(f, width) =>
      var s := FixedInput(f, key, width);
      (Fixed(s.field, width), s.ret)
    case Button(_) => (w, Some(key))
  }
}

=== FILE: textbuffer.dfy ===
/** The editing state shared by the curses text fields: a content string
    with a cursor between characters, the edits both text-field classes
    perform on it, and the viewport arithmetic of their `draw` methods
    (which choose the visible slice and the cursor column). The curses
    calls themselves are not modelled. */
module TextBuffer {
  import opened Results

  /** The curses key codes the fields react to (ncurses values). */
  const KeyLeft := 260
  const KeyRight := 261
  const KeyBackspace := 263
  const KeyDelete := 330

  /** What `stdscr.get_wch()` hands to a field: a string, an integer key
      code, or anything else Python might pass. */
  datatype Input = Chars(s: string) | KeyCode(code: int) | Other

  /** `content` and `cursor_position`; the cursor stands before
      `content[cursor]`. */
  datatype Field = Field(content: string, cursor: int)

  /** A field after a keystroke and the method's return value: `None` when
      the keystroke was handled, otherwise the key handed back. */
  datatype Step = Step(field: Field, ret: Option<Input>)

  /** The invariant every operation keeps. */
  predicate Valid(f: Field) {
    0 <= f.cursor <= |f.content|
  }

  /** The constructor: the initial string with the cursor after it. */
  function Create(init: string): (f: Field)
    ensures Valid(f)
    ensures f.content == init && f.cursor == |init|
  {
    Field(init, |init|)
  }

  /** `add`: `s` goes in at the cursor, which moves past it; the text
      before the cursor gains `s` and the text after it is untouched. */
  function Insert(f: Field, s: string): (r: Field)
    requires Valid(f)
    ensures Valid(r)
    ensures |r.content| == |f.content| + |s| && r.cursor == f.cursor + |s|
    ensures r.content[..r.cursor] == f.content[..f.cursor] + s
    ensures r.content[r.cursor..] == f.content[f.cursor..]
  {
    var r := Field(f.content[..f.cursor] + s + f.content[f.cursor..], f.cursor + |s|);
    assert r.content[..r.cursor] == f.content[..f.cursor] + s;
    assert r.content[r.cursor..] == f.content[f.cursor..];
    r
  }

  /** The effective part of `delete`: the character before the cursor goes,
      and the cursor steps back over it. */
  function Backspace(f: Field): (r: Field)
    requires Valid(f) && f.cursor > 0
    ensures Valid(r)
    ensures |r.content| == |f.content| - 1 && r.cursor == f.cursor - 1
    ensures r.content[..r.cursor] == f.content[..f.cursor - 1]
    ensures r.content[r.cursor..] == f.content[f.cursor..]
  {
    var r := Field(f.content[..f.cursor - 1] + f.content[f.cursor..], f.cursor - 1);
    assert r.content[..r.cursor] == f.content[..f.cursor - 1];
    assert r.content[r.cursor..] == f.content[f.cursor..];
    r
  }

  /** `cursor_to_end`. */
  function ToEnd(f: Field): (r: Field)
    ensures Valid(r)
    ensures r.content == f.content && r.cursor == |f.content|
  {
    Field(f.content, |f.content|)
  }

  /** Backspacing a just-inserted character restores the field. */
  lemma BackspaceUndoesInsert(f: Field, ch: char)
    requires Valid(f)
    ensures Insert(f, [ch]).cursor > 0
    ensures Backspace(Insert(f, [ch])) == f
  {
    var r := Backspace(Insert(f, [ch]));
    assert r.content == r.content[..r.cursor] + r.content[r.cursor..];
    assert f.content == f.content[..f.cursor] + f.content[f.cursor..];
  }

  /** `n` backspaces in a row. */
  function BackspaceTimes(f: Field, n: nat): (r: Field)
    requires Valid(f) && n <= f.cursor
    ensures Valid(r)
    ensures |r.content| == |f.content| - n && r.cursor == f.cursor - n
    decreases n
  {
    if n == 0 then f else BackspaceTimes(Backspace(f), n - 1)
  }

  /** Backspacing as many times as characters were inserted restores the
      field: the two edits are inverse. */
  lemma {:induction false} BackspaceTimesUndoesInsert(f: Field, s: string)
    requires Valid(f)
    ensures |s| <= Insert(f, s).cursor
    ensures BackspaceTimes(Insert(f, s), |s|) == f
    decreases |s|
  {
    if |s| > 0 {
      var last := s[|s| - 1];
      var init := s[..|s| - 1];
      var g := Insert(f, init);
      assert Insert(f, s) == Insert(g, [last]) by {
        var a := Insert(f, s);
        var b := Insert(g, [last]);
        assert init + [last] == s;
        assert a.content == a.content[..a.cursor] + a.content[a.cursor..];
        assert b.content == b.content[..b.cursor] + b.content[b.cursor..];
        assert b.content[..b.cursor] == f.content[..f.cursor] + init + [last];
      }
      BackspaceUndoesInsert(g, last);
      BackspaceTimesUndoesInsert(f, init);
    }
  }

  /** The visible part of a text field: `content[start..end]` is drawn and
      the cursor is placed in `column`. */
  datatype Viewport = Viewport(start: int, end: int, column: int)

  /** The viewport arithmetic of `draw`, for a window `width` columns wide.
      A string shorter than the window is shown whole; a longer one shows
      the window's worth around the cursor: the left end while the cursor
      is in the left half, the right end once the cursor is near it, and a
      slice with the cursor in the centre column otherwise. */
  function View(f: Field, width: int): (v: Viewport)
    requires Valid(f)
    requires width >= 1
    ensures 0 <= v.start <= v.end <= |f.content|
    ensures 0 <= v.column <= width - 1
    ensures v.start + v.column == f.cursor
    ensures v.column <= v.end - v.start
    ensures |f.content| <= width - 1 ==> v == Viewport(0, |f.content|, f.cursor)
    ensures |f.content| > width - 1 ==> width - 1 <= v.end - v.start <= width
  {
    var length := |f.content|;
    if length > width - 1 then
      var center := width / 2;
      if f.cursor <= center then
        Viewport(0, width - 1, f.cursor)
      else if f.cursor > length - (width - 1 - center) - 1 then
        var start := length - (width - 1);
        Viewport(start, length, f.cursor - start)
      else
        var start := f.cursor - center;
        Viewport(start, start + width, center)
    else
      Viewport(0, length, f.cursor)
  }

  /** The string `draw` writes into the window. */
  function Visible(f: Field, width: int): (s: string)
    requires Valid(f) && width >= 1
    ensures |s| <= width
    ensures width >= 3 && f.cursor < |f.content| ==> View(f, width).column < |s| && s[View(f, width).column] == f.content[f.cursor]
  {
    var v := View(f, width);
    f.content[v.start..v.end]
  }
}
